=== FILE: README.md ===
# SafeNest client core, modelled in Dafny

This project models the request-resilience and result-shaping logic of the SafeNest .NET
SDK (`SafeNestClient` and its enums, exceptions and records). The transport, the JSON
library, the clock and the random source become inputs. What is left is pure and
sequential, and is written as immutable datatypes and total functions:

- **`Retry`**: the retry loop of `RequestWithRetryAsync`. It is a recursive function over a
  script with one step per attempt. Each step holds the exchange, the jitter `Random.Next`
  would draw, and whether the caller cancels during the backoff. The function returns the
  outcome, the number of attempts, the delays awaited, and the metadata state left behind.
  It is proved equal to an independent reference description (`RequestMeetsReference`),
  and the properties of the loop follow from that description.
- **`Executor`** and **`Classifier`**: how one exchange ends (`PerformRequestAsync`).
  - the HTTP status table and the best-effort error-body parse of `HandleErrorResponse`;
  - the mapping of transport faults to timeout, network error or cancellation;
  - the retryability verdict.
- **`Backoff`**: `CalculateBackoff`, that is exponential growth, a quarter-width jitter and
  a 30-second cap.
- **`Metadata`**: `ParseResponseHeaders`, which updates the client's usage, rate-limit,
  warning and request-id snapshot. It runs for every response, error responses included.
- **`Analyze`**: the aggregation step of `AnalyzeAsync`, which computes the maximum score,
  the risk-level thresholds, the summary text and the action priority.
- **`Naming`**: the snake-case naming policy, given both as a loop and as a reference
  definition.
- **`Requests`** and **`Client`**: the input validators, the request-body helpers, and the
  checks made by the two constructors.
- **`Enums`**, **`Exceptions`** and **`Models`**: the wire-string tables and their parsers,
  the error hierarchy with its fixed status codes, and the records with their derived enum
  accessors.
- **`Wrappers`**, **`Text`** and **`Decimal`**: helpers for options and results; text
  as .NET sees it (ASCII case mapping, `char.IsWhiteSpace`, `string.Length` in UTF-16 code
  units, `string.Join`); and `int.TryParse`/`ToString` for decimal integers.

Where the documentation and the code differ, the model follows the code:

- **Include list.** `AnalyzeInput.Include` is documented as accepting "grooming", but
  `AnalyzeAsync` only looks for the exact strings "bullying" and "unsafe". The model does
  the same: "grooming" has no effect (`NoDetectorRequested`).
- **Leading underscore in names.** The naming policy only prefixes an underscore to
  upper-case letters after the first character. Its output starts with '_' exactly when the
  input does (`SnakeCaseLeadingUnderscore`). It is not "never".
- **Retry-after on 429.** `HandleErrorResponse` never assigns its `retryAfter` variable,
  so every rate-limit error it raises has no retry-after value. Every delay the loop awaits
  is therefore a computed backoff (`DelaysAreBackoffs`).
- **Zero attempts.** The constructor that takes an `HttpClient` does not check the retry
  count. With a negative count the loop runs zero times and throws "Request failed after
  retries". This is the only way that line is reached (`RequestWithRetry`).

## Model

| member | source | states |
|---|---|---|
| Retry.RequestWithRetry | src/SafeNest/SafeNestClient.cs:391-421 | A call makes between 1 and maxRetries + 1 attempts. A negative retry count (which only the constructor taking an HttpClient admits) makes no attempt and throws the generic "Request failed after retries" error. |
| Retry.RunFrom | src/SafeNest/SafeNestClient.cs:395-418 | From iteration `attempt` on, at most maxRetries + 1 - attempt attempts are made, and at least one. The loop awaits one delay per attempt that was followed by a retry, plus at most one more. |
| Retry.RunFromAttempts | src/SafeNest/SafeNestClient.cs:395-418 | Every attempt but the last failed with a caught error and was not cancelled during its delay. The last attempt was not followed by another. Proved by induction over the iterations. |
| Retry.RunFromOutcome | src/SafeNest/SafeNestClient.cs:397-418 | The call ends with the last attempt's own outcome, unless that attempt started a backoff; the call then ends as cancelled. Proved by induction. |
| Retry.RunFromDelays | src/SafeNest/SafeNestClient.cs:405-417 | There is one delay per attempt that backed off, in order. Each is the delay owed after that attempt. Proved by induction. |
| Retry.RunFromState | src/SafeNest/SafeNestClient.cs:395-418 | The metadata state has observed exactly the exchanges of the attempts made, in order. Proved by induction. |
| Retry.UnfoldContinue | src/SafeNest/SafeNestClient.cs:405-417 | When an attempt backs off and is not cancelled, the run is that attempt followed by the run from the next iteration. |
| Retry.DelaysShift | src/SafeNest/SafeNestClient.cs:405-417 | Prepending the delay owed after one attempt to the delays of the following iterations gives the delays owed from that attempt on. |
| Retry.DelaysWhenStopping | src/SafeNest/SafeNestClient.cs:397-418 | The delay part of the reference holds when an iteration ends the loop. |
| Retry.DelaysWhenContinuing | src/SafeNest/SafeNestClient.cs:405-417 | The delay part of the reference carries over from the next iteration to the current one. |
| Retry.RequestMeetsReference | src/SafeNest/SafeNestClient.cs:391-421 | The whole loop agrees with the four-part reference description: attempts, outcome, delays and state. |
| Classifier.RetryableKinds | src/SafeNest/SafeNestClient.cs:534-537 | `IsRetryable` holds exactly for server, network and timeout errors; a rate-limit error is not retryable by it. |
| Retry.TerminalKindsNeverRetried | src/SafeNest/SafeNestClient.cs:401-417 | Authentication, validation, not-found, tier-access and generic errors are never caught by a retry filter. |
| Retry.FirstAttemptEndsCall | src/SafeNest/SafeNestClient.cs:397-418 | A first attempt that does not back off is the only attempt. Its outcome is the call's, and nothing is awaited. |
| Retry.TerminalErrorOnFirstAttempt | src/SafeNest/SafeNestClient.cs:397-417 | A terminal error, a foreign exception or a caller cancellation on the first attempt ends the call after that one attempt, with that outcome. |
| Retry.LastErrorSurfaces | src/SafeNest/SafeNestClient.cs:395-420 | A failed call surfaces exactly the error of the last attempt it made. |
| Retry.OnlyTransientFailuresRetried | src/SafeNest/SafeNestClient.cs:405-417 | Every attempt before the last failed with a rate-limit, server, network or timeout error while attempts remained, and was not cancelled during its backoff. |
| Retry.ExhaustedBudget | src/SafeNest/SafeNestClient.cs:395-418 | If every attempt fails transiently, the loop makes maxRetries + 1 attempts and awaits maxRetries delays. It then surfaces the last attempt's error. |
| Retry.CancelledDuringBackoff | src/SafeNest/SafeNestClient.cs:410-416 | A cancellation while the backoff is awaited ends the call as cancelled, after a single attempt. |
| Retry.DelaysAreBackoffs | src/SafeNest/SafeNestClient.cs:405-416 | Every awaited delay is the computed backoff for its attempt, because a rate-limit error never carries a retry-after value. No delay exceeds 30 seconds. |
| Retry.StateObservesAttemptsMade | src/SafeNest/SafeNestClient.cs:395-418 | After the call, the metadata state is the initial state updated by the exchanges of the attempts made, in order. |
| Backoff.CalculateBackoff | src/SafeNest/SafeNestClient.cs:527-532 | The result lies between 0 and 30,000, and is at least min(retryDelay·2^attempt, 30,000). Below the cap it is under the base plus a quarter of the base, or exactly the base when that quarter is 0. |
| Backoff.Pow2 | src/SafeNest/SafeNestClient.cs:529 | `1 << attempt` (for attempt below 31), the multiplier `CalculateBackoff` is proved against. Its own contract only states that it is at least 1. |
| Backoff.Pow2Monotone | src/SafeNest/SafeNestClient.cs:529 | A later attempt never has a smaller multiplier. |
| Backoff.BaseDelayMonotone | src/SafeNest/SafeNestClient.cs:529 | A later attempt never has a smaller base delay. |
| Backoff.BackoffSaturates | src/SafeNest/SafeNestClient.cs:531 | Once the base delay reaches 30,000, the backoff is exactly 30,000 whatever the jitter. |
| Backoff.DefaultSchedule | src/SafeNest/SafeNestClient.cs:527-532 | Worked example: with the default 1,000 ms delay, the three retries wait in [1000,1250), [2000,2500) and [4000,5000). |
| Classifier.ParseErrorBody | src/SafeNest/SafeNestClient.cs:494-512 | A body without an error object yields "Request failed" and no details. Message, code and suggestion come from string members, and details from the member's text form. The first non-string member read ends the parse, keeping what was read before it: a non-string message keeps nothing, a non-string code keeps the message only, and a non-string suggestion keeps the message and code without details or suggestion. |
| Classifier.HandleErrorResponse | src/SafeNest/SafeNestClient.cs:492-525 | The kind follows the status table: 400, 401, 403, 404 and 429 map to their classes, 500 and above to a server error, and anything else to a generic error. The status code is the response's, the message and details are the parsed ones, and there is no retry-after value. |
| Classifier.KindIgnoresBody | src/SafeNest/SafeNestClient.cs:514-524 | The error's kind and status code depend only on the status, not on the body. |
| Classifier.OpaqueBodyGivesDefaultMessage | src/SafeNest/SafeNestClient.cs:494-511 | A malformed or missing error body yields the message "Request failed" and no code, details or suggestion. |
| Classifier.ClassifyFault | src/SafeNest/SafeNestClient.cs:455-466 | A caller cancellation stays a cancellation. Any other cancellation becomes a timeout, and an HTTP failure becomes a network error, neither with a status code. Any other exception, such as a serialisation failure, escapes unchanged as a foreign exception. |
| Executor.Classify | src/SafeNest/SafeNestClient.cs:423-467 | A timeout below -1 makes `CancelAfter` throw before anything is sent, as a foreign exception. Otherwise a value is returned exactly when a success status comes with a deserialised body, and it is that body. A non-success status raises the status table's error. A null body raises the generic parse error, and a malformed body escapes as a foreign exception. Cancellation happens only when the caller cancels before a response completes. An internal cancellation becomes a timeout, and an HTTP failure a network error. |
| Executor.OutcomeRecordsHeaders | src/SafeNest/SafeNestClient.cs:428-447 | Every exchange that returns a value or raises an HTTP status error has recorded its response's headers, and so has one whose body could not be read. A failure before any response, or a timeout `CancelAfter` rejects, leaves the state alone; a changed state means a response arrived. |
| Executor.ErrorResponsesRecordHeaders | src/SafeNest/SafeNestClient.cs:445-450 | An error response updates the metadata state exactly as a success would. It raises the status table's error whatever its body would have deserialised to. |
| Metadata.GetHeaderFindsFirst | src/SafeNest/SafeNestClient.cs:539-542 | States what `GetHeader` computes: a header is found exactly when some field has its name, ignoring case, and the value is that of the first such field. Proved by induction. |
| Metadata.GetHeaderIgnoresCase | src/SafeNest/SafeNestClient.cs:541 | Looking a header up by a name or by its lower-case form gives the same value. Proved by induction. |
| Metadata.MixedCaseNameFound | src/SafeNest/SafeNestClient.cs:541 | Worked example: a header sent as "X-Request-Id" is found when asked for as "x-request-id". |
| Metadata.ParseResponseHeaders | src/SafeNest/SafeNestClient.cs:469-490 | The request id and warning are always overwritten, with null when absent. Usage is replaced, from the three monthly headers, only when all three parse. Rate limit is replaced exactly when its limit and remaining parse, with those values and with reset set to the parsed reset header, or null when that does not parse. |
| Metadata.ParseHeadersIdempotent | src/SafeNest/SafeNestClient.cs:469-490 | Reading the same headers twice leaves the state as reading them once. |
| Metadata.CompleteHeadersOverwrite | src/SafeNest/SafeNestClient.cs:473-487 | When every numeric header parses, the result does not depend on the previous state. |
| Metadata.EmptyHeadersKeepSnapshots | src/SafeNest/SafeNestClient.cs:469-490 | A response without headers keeps usage and rate limit, and clears the request id and warning. |
| Metadata.UsageNeverPartial | src/SafeNest/SafeNestClient.cs:473-478 | If any monthly header fails to parse, usage keeps its previous value. |
| Decimal.TryParse | src/SafeNest/SafeNestClient.cs:473-485 | `int.TryParse`/`long.TryParse` of a possibly null header: a parsed value is always in range. |
| Decimal.ParseRoundTrip | src/SafeNest/SafeNestClient.cs:473-485 | Parsing the decimal text of an in-range integer gives that integer back. |
| Decimal.ParseOutOfRange | src/SafeNest/SafeNestClient.cs:473-485 | The decimal text of an out-of-range integer does not parse. |
| Decimal.IntToString | src/SafeNest/SafeNestClient.cs:461 | The text of an integer is non-empty and starts with '-' exactly when the integer is negative. |
| Analyze.AnalyzeCall | src/SafeNest/SafeNestClient.cs:197-274 | The content check runs first. The result is a value exactly when every requested detector succeeded, and it is the aggregate of the requested results. Otherwise a requested detector's failure surfaces, the bullying one first. |
| Analyze.Aggregate | src/SafeNest/SafeNestClient.cs:236-273 | The combined score is at least every present sub-score and is one of them, or 0 when a result is absent. Its level's rank is the number of thresholds the score reaches. The summary is the all-clear text exactly when nothing was flagged. The action is "none" or one a present result recommends, and no recommended action outranks it. The sub-results and the input's tracking fields are carried over. |
| Analyze.MaxRiskScore | src/SafeNest/SafeNestClient.cs:236-238 | The score is at least every present sub-score and is one of them. It can be 0 without being a sub-score only when a result is absent, since an absent result counts as 0. |
| Analyze.LevelFor | src/SafeNest/SafeNestClient.cs:240-247 | A level's rank is the number of thresholds 0.3, 0.5, 0.7 and 0.9 the score reaches. |
| Analyze.Reached | src/SafeNest/SafeNestClient.cs:240-247 | The reference count of thresholds a score reaches, which `LevelFor`'s rank is proved equal to. Its own contract only bounds the count by the number of thresholds. |
| Analyze.ReachedMonotone | src/SafeNest/SafeNestClient.cs:240-247 | A higher score reaches at least as many thresholds. Proved by induction. |
| Analyze.LevelMonotone | src/SafeNest/SafeNestClient.cs:240-247 | A higher score never gives a lower risk level. |
| Analyze.Summary | src/SafeNest/SafeNestClient.cs:249-255 | The summary is "No safety concerns detected." exactly when nothing was flagged. Otherwise it is the flagged findings, bullying first, joined by ". ". |
| Analyze.RecommendedAction | src/SafeNest/SafeNestClient.cs:257-261 | The result is "none" or a named action a present result recommends. No recommended action outranks it in the order immediate_intervention, flag_for_moderator, monitor. |
| Analyze.Propagate | src/SafeNest/SafeNestClient.cs:234 | A sub-call's failure reaches the caller unchanged: the same error, cancellation or foreign exception. |
| Analyze.UnrequestedCallsIgnored | src/SafeNest/SafeNestClient.cs:201-232 | A detector that was not requested has no effect on the result. |
| Analyze.NoDetectorRequested | src/SafeNest/SafeNestClient.cs:201-261 | With the check list ["grooming"], the result is the all-clear: level Safe, score 0, the fixed summary and action "none". |
| Analyze.SevereBullyingExample | src/SafeNest/SafeNestClient.cs:236-261 | Worked example: bullying at 0.95 beside clean unsafe content at 0.2 gives Critical, 0.95, a bullying-only summary and the higher-priority action. |
| Requests.ValidateContentLength | src/SafeNest/SafeNestClient.cs:562-568 | Content passes exactly when it has 1 to 50,000 UTF-16 code units. Otherwise a validation error (status 400, no details) is raised, and empty content gets "Content is required". |
| Requests.EmojiCountTwice | src/SafeNest/SafeNestClient.cs:566-567 | 30,000 emoji outside the Basic Multilingual Plane are rejected as too long, since each counts as two code units. |
| Requests.BmpContentLimit | src/SafeNest/SafeNestClient.cs:562-568 | For text within the Basic Multilingual Plane the limit is 1 to 50,000 characters. |
| Requests.ValidateMessagesCount | src/SafeNest/SafeNestClient.cs:570-576 | A message count passes exactly when it is between 1 and 100; otherwise a validation error is raised. |
| Requests.ContextMembers | src/SafeNest/SafeNestClient.cs:547-551 | The context object has one member per non-null property, under its wire name, and no other member. |
| Requests.AddContext | src/SafeNest/SafeNestClient.cs:544-553 | "context" is added only for a present context with at least one non-null property. No other key changes. |
| Requests.AddTrackingFields | src/SafeNest/SafeNestClient.cs:555-560 | Exactly the non-null ones of external_id, customer_id and metadata are added, with their values. Other keys are untouched. |
| Client.NewClient | src/SafeNest/SafeNestClient.cs:83-106 | The primary constructor succeeds exactly when the key is not blank and has at least 10 UTF-16 code units, the timeout is in 1,000..120,000, and retries are in 0..10. The checks are made in that order: the timeout error is raised exactly when the key passes and the timeout does not, and the retries error exactly when the key and timeout pass and the retry count does not. The client keeps the options it was given. |
| Client.NewClientWithHttpClient | src/SafeNest/SafeNestClient.cs:111-127 | The constructor taking an HttpClient only rejects a blank key, and does not own the HttpClient. |
| Client.DefaultOptionsAccepted | src/SafeNest/Models.cs:15-21 | Null options mean timeout 30,000, 3 retries and a 1,000 ms delay, which pass the range checks. |
| Client.PrimaryClientAttempts | src/SafeNest/SafeNestClient.cs:94-99 | A client from the primary constructor has a retry count in 0..10, so every call makes 1 to 11 attempts. |
| Client.NegativeRetriesSendNothing | src/SafeNest/SafeNestClient.cs:111-127 | The constructor taking an HttpClient accepts a retry count of -1. Every call of that client then makes no attempt and fails with "Request failed after retries". |
| Client.NegativeTimeoutThrows | src/SafeNest/SafeNestClient.cs:428-429 | A client from the constructor taking an HttpClient with a timeout below -1 and a retry count of 0 or more ends every call with the exception `CancelAfter` throws, after one try and with the metadata state untouched. |
| Retry.RejectedDeadlineEndsCall | src/SafeNest/SafeNestClient.cs:428-429 | A timeout `CancelAfter` rejects ends the call with that exception after one try. No delay is awaited and the state is unchanged. |
| Client.HttpClientConstructorIsLaxer | src/SafeNest/SafeNestClient.cs:83-127 | Every configuration the primary constructor accepts, the other accepts too. The other also accepts a retry count of -1, which the primary rejects. |
| Naming.ConvertName | src/SafeNest/SafeNestClient.cs:42-60 | The loop computes the reference snake-case rewriting. |
| Naming.RewriteAllLength | src/SafeNest/SafeNestClient.cs:46-58 | Rewriting adds one character per upper-case letter. |
| Naming.RewriteAllNoUpper | src/SafeNest/SafeNestClient.cs:49-57 | Rewriting leaves no upper-case letter. |
| Naming.RewriteAllOfNoUpper | src/SafeNest/SafeNestClient.cs:53-56 | Text without upper-case letters is rewritten to itself. |
| Naming.SnakeCaseLength | src/SafeNest/SafeNestClient.cs:44-58 | Empty input gives empty output. Otherwise the output is as long as the input plus the number of upper-case letters after the first character. |
| Naming.SnakeCaseNoUpper | src/SafeNest/SafeNestClient.cs:44-58 | The output contains no upper-case letter. |
| Naming.SnakeCaseOfNoUpper | src/SafeNest/SafeNestClient.cs:44-58 | A name without upper-case letters is returned unchanged. |
| Naming.SnakeCaseIdempotent | src/SafeNest/SafeNestClient.cs:44-58 | Converting a converted name changes nothing. |
| Naming.SnakeCaseLeadingUnderscore | src/SafeNest/SafeNestClient.cs:51 | The output starts with '_' exactly when the input does. |
| Enums.ParseSeverity | src/SafeNest/Enums.cs:172-179 | Any casing of a severity's wire string parses to that severity; anything else, null included, gives Low. |
| Enums.ParseGroomingRisk | src/SafeNest/Enums.cs:181-189 | Any casing of a grooming risk's wire string parses to that risk; anything else gives None. |
| Enums.ParseRiskLevel | src/SafeNest/Enums.cs:191-199 | Any casing of a level's wire string parses to that level, and "moderate" parses to Medium; anything else gives Safe. |
| Enums.ParseEmotionTrend | src/SafeNest/Enums.cs:201-207 | Any casing of a trend's wire string parses to that trend; anything else gives Stable. |
| Enums.SeverityRoundTrip | src/SafeNest/Enums.cs:116-179 | Parsing a severity's wire string gives it back. |
| Enums.GroomingRiskRoundTrip | src/SafeNest/Enums.cs:125-189 | Parsing a grooming risk's wire string gives it back. |
| Enums.RiskLevelRoundTrip | src/SafeNest/Enums.cs:135-199 | Parsing a risk level's wire string gives it back. |
| Enums.EmotionTrendRoundTrip | src/SafeNest/Enums.cs:201-207 | Parsing a trend's wire string gives it back. |
| Enums.ParsersIgnoreCase | src/SafeNest/Enums.cs:172-207 | Each parser gives the same result for a string and its lower-case form. |
| Enums.SeverityFallBack | src/SafeNest/Enums.cs:172-179 | Any value, null included, that matches no severity's wire string in any casing reads as Low. |
| Enums.GroomingRiskFallBack | src/SafeNest/Enums.cs:181-189 | Any value, null included, that matches no grooming risk's wire string in any casing reads as None. |
| Enums.RiskLevelFallBack | src/SafeNest/Enums.cs:191-199 | Any value, null included, that matches neither a level's wire string nor "moderate" in any casing reads as Safe. |
| Enums.EmotionTrendFallBack | src/SafeNest/Enums.cs:201-207 | Any value, null included, that matches no trend's wire string in any casing reads as Stable. |
| Enums.ToApiStringsInjective | src/SafeNest/Enums.cs:114-170 | No two members of any enum share a wire string. |
| Enums.ModerateIsReadOnly | src/SafeNest/Enums.cs:135-199 | "moderate" parses to Medium but is never emitted. |
| Exceptions.Plain | src/SafeNest/Exceptions.cs:20-27 | A generic error built from a message alone has no status code, code, details or suggestion. |
| Exceptions.StatusCodesFixedByClass | src/SafeNest/Exceptions.cs:38-93 | Authentication errors carry 401, validation 400, not-found 404, rate-limit 429 and tier-access 403. A server error carries the status it was built with. |
| Exceptions.TransportErrorsCarryNoPayload | src/SafeNest/Exceptions.cs:98-117 | Timeout and network errors carry no status code, code, details, suggestion or retry-after value. |
| Exceptions.RetryAfterIsConstructorArgument | src/SafeNest/Exceptions.cs:65-75 | A rate-limit error's retry-after value and details are its constructor arguments. |
| Models.BullyingResult.Severity | src/SafeNest/Models.cs:253-256 | The severity is the case-insensitive parse of the raw string, Low when it is unrecognised. |
| Models.GroomingResult.GroomingRisk | src/SafeNest/Models.cs:283-286 | The risk is the case-insensitive parse of the raw string, None when it is unrecognised. |
| Models.UnsafeResult.Severity | src/SafeNest/Models.cs:325-328 | The severity is the case-insensitive parse of the raw string, Low when it is unrecognised. |
| Models.EmotionsResult.Trend | src/SafeNest/Models.cs:380-383 | The trend is the case-insensitive parse of the raw string, Stable when it is unrecognised. |
| Models.ReportResult.RiskLevel | src/SafeNest/Models.cs:437-440 | The level is the case-insensitive parse of the raw string, "moderate" giving Medium. Any level other than Safe comes from its own wire string, or from "moderate" for Medium. |
| Models.DefaultRawStringsParse | src/SafeNest/Models.cs:241-456 | The default raw strings give Low, None, Low, Stable and Low. |
| Text.ToLower | src/SafeNest/SafeNestClient.cs:52 | Lower-casing maps A-Z to a-z and leaves every other character alone. |
| Text.LowerHasNoUpper | src/SafeNest/Enums.cs:172 | Lower-cased text has no upper-case letter. |
| Text.LowerOfNoUpper | src/SafeNest/Enums.cs:172 | Text without upper-case letters is its own lower-case form. |
| Text.LowerIdempotent | src/SafeNest/Enums.cs:172 | Lower-casing twice is lower-casing once. |
| Text.Join | src/SafeNest/SafeNestClient.cs:249-255 | Joining nothing gives "", and joining one item gives that item. Otherwise the result starts with the first item. |
| Text.JoinSnoc | src/SafeNest/SafeNestClient.cs:249-255 | Joining a non-empty list with one more item appends the separator and that item. Proved by induction. |
| Text.EnQuadsAreBlank | src/SafeNest/SafeNestClient.cs:85 | Text made only of Unicode spaces such as U+2000 or U+3000, or of a line separator, is blank; a zero-width space is not white space. |
| Text.Utf16Length | src/SafeNest/SafeNestClient.cs:566 | A string's .NET length is at least its number of characters and at most twice that. |
| Text.Utf16LengthOfBmp | src/SafeNest/SafeNestClient.cs:566 | Text within the Basic Multilingual Plane has one code unit per character. Proved by induction. |
| Text.Utf16LengthOfAstral | src/SafeNest/SafeNestClient.cs:566 | Text outside the Basic Multilingual Plane has two code units per character. Proved by induction. |
| Text.Utf16LengthAppend | src/SafeNest/SafeNestClient.cs:566 | The length of a concatenation is the sum of the lengths. Proved by induction. |

## Left out

- HTTP transport, request building, bearer and accept headers, `BaseAddress`/`Uri` validation and `Dispose` ownership are I/O plumbing. An exchange is an input: a fault, a failure while reading the body, or a completed response with headers, a parsed error body and a typed payload.
- JSON is not modelled. `System.Text.Json` serialisation, deserialisation and the `[JsonPropertyName]` overrides belong to a foreign library. A request body is a map of JSON values, and an error body is already split into its members.
- Concurrency in `AnalyzeAsync` (`ContinueWith`, `Task.WhenAll`, scheduling) is not modelled. In the code a failed sub-call reaches the caller wrapped in an `AggregateException` by `t.Result`, and a cancelled continuation surfaces as a cancellation. The model surfaces the sub-call's own failure and does not model the wrapper.
- Analyze.AnalyzeCall: when both requested sub-calls fail, the model always surfaces the bullying call's end. That order is the model's own choice. `Task.WhenAll` prefers a faulted task to a cancelled one, so with a cancelled bullying continuation and a faulted unsafe call the code surfaces the unsafe fault, while the model returns a cancellation.
- `Task.Delay` sleeping and `CancelAfter` timing are not modelled. A delay is a value the run records, and a timeout or caller cancellation is a scripted fault.
- `Random.Shared.Next` is not modelled. Jitter is a parameter constrained to the range that call can return.
- `LastLatencyMs` is not modelled, because the stopwatch reads the wall clock.
- Risk scores are `real`, not IEEE doubles. NaN and rounding are not modelled, since the code only applies `Math.Max` and `>=`.
- Naming.ConvertName: restricted to ASCII upper case. `char.IsUpper` and `ToLowerInvariant` also cover other Unicode letters.
- Enums.ParseSeverity: lower-casing is ASCII-only, for the same reason; likewise the other three parsers.
- Metadata.GetHeaderFindsFirst: header names are compared ignoring ASCII case only. HTTP header names are ASCII tokens, so no valid name is affected.
- `CancelAfter`'s timing is not modelled, but its argument check is: a timeout below -1, which only the constructor taking an `HttpClient` admits, throws before the request is sent.
- Decimal.TryParse: accepts an optional sign and decimal digits with a range check. Leading or trailing white space, thousands separators and culture-specific signs, which `int.TryParse` can accept, are not modelled.
- Backoff.CalculateBackoff: requires that `retryDelay * (1 << attempt)` plus its jitter bound fits in 32 bits and that `attempt < 31`. It also requires a non-negative `retryDelay`, which the code never checks. The C# overflow, wrap-around and shift masking that lie outside those bounds are not modelled.
- Retry.RequestWithRetry: requires a script with a step for every attempt the loop may make, and requires the backoff to be within the 32-bit bounds above. The code's `RetryAfterSeconds * 1000` branch is modelled, but it is never taken.
- The endpoint methods (`DetectBullyingAsync`, `DetectGroomingAsync`, `AnalyzeEmotionsAsync`, `GetActionPlanAsync`, `GenerateReportAsync` and the account calls) and their input records are not modelled. Each of them does no more than check its input with the modelled `ValidateContentLength` or `ValidateMessagesCount` (the detection, emotion and report calls do), build a body and call the retry loop. The grooming-specific context object is not modelled either.
- The `_ =>` fallback arms of the `ToApiString` switches are not modelled, because they cannot be reached from a declared enum member.
- The read-only nature of the exception properties and records holds by construction: every value here is an immutable datatype.
- `RiskCategory`, `AnalysisType` and `IncidentStatus` are declared as enums, but no operation in the core uses them.

=== FILE: analyze.dfy ===
/** `AnalyzeAsync`: the composite check that runs the requested detectors and folds their
    results into one risk level, score, summary and recommended action. The detector calls
    themselves are inputs: each is the outcome its own request would have produced. */
module Analyze {
  import opened Wrappers
  import opened Text
  import opened Exceptions
  import opened Models
  import Enums
  import Requests

  /** The checks run when the input names none. */
  const DefaultChecks: seq<string> := ["bullying", "unsafe"]

  const NoConcerns: string := "No safety concerns detected."
  const ImmediateIntervention: string := "immediate_intervention"
  const FlagForModerator: string := "flag_for_moderator"
  const Monitor: string := "monitor"
  const NoAction: string := "none"

  /** The checks an input asks for. Only "bullying" and "unsafe" have an effect. */
  function RequestedChecks(input: AnalyzeInput): seq<string> {
    input.checks.GetOr(DefaultChecks)
  }

  predicate WantsBullying(input: AnalyzeInput) { "bullying" in RequestedChecks(input) }
  predicate WantsUnsafe(input: AnalyzeInput) { "unsafe" in RequestedChecks(input) }

  /** The larger of the two risk scores, an absent result counting as 0. */
  function MaxRiskScore(b: Option<BullyingResult>, u: Option<UnsafeResult>): (r: real)
    ensures b.None? || u.None? ==> r >= 0.0
    ensures b.Some? ==> r >= b.value.riskScore
    ensures u.Some? ==> r >= u.value.riskScore
    ensures || (r == 0.0 && (b.None? || u.None?))
            || (b.Some? && r == b.value.riskScore)
            || (u.Some? && r == u.value.riskScore)
  {
    var bs := if b.Some? then b.value.riskScore else 0.0;
    var us := if u.Some? then u.value.riskScore else 0.0;
    if bs >= us then bs else us
  }

  /** The lower bounds of Low, Medium, High and Critical, in increasing order. */
  const Thresholds: seq<real> := [0.3, 0.5, 0.7, 0.9]

  /** How many of the thresholds `ts` the score reaches. */
  function Reached(score: real, ts: seq<real>): nat
    ensures Reached(score, ts) <= |ts|
  {
    if |ts| == 0 then 0 else (if score >= ts[0] then 1 else 0) + Reached(score, ts[1..])
  }

  /** The risk level a score maps to: the level's rank is the number of thresholds reached. */
  function LevelFor(score: real): (r: Enums.RiskLevel)
    ensures r.Rank() == Reached(score, Thresholds)
  {
    assert Thresholds[1..] == [0.5, 0.7, 0.9] && [0.5, 0.7, 0.9][1..] == [0.7, 0.9];
    assert [0.7, 0.9][1..] == [0.9] && [0.9][1..] == [];
    assert Reached(score, [0.9]) == if score >= 0.9 then 1 else 0;
    assert Reached(score, [0.7, 0.9]) == (if score >= 0.7 then 1 else 0) + Reached(score, [0.9]);
    assert Reached(score, [0.5, 0.7, 0.9]) == (if score >= 0.5 then 1 else 0) + Reached(score, [0.7, 0.9]);
    if score >= 0.9 then Enums.RiskLevel.Critical
    else if score >= 0.7 then Enums.RiskLevel.High
    else if score >= 0.5 then Enums.RiskLevel.Medium
    else if score >= 0.3 then Enums.RiskLevel.Low
    else Enums.RiskLevel.Safe
  }

  lemma {:induction false} ReachedMonotone(s1: real, s2: real, ts: seq<real>)
    requires s1 <= s2
    ensures Reached(s1, ts) <= Reached(s2, ts)
    decreases |ts|
  {
    if |ts| > 0 {
      ReachedMonotone(s1, s2, ts[1..]);
    }
  }

  /** A higher score never gives a lower risk level. */
  lemma LevelMonotone(s1: real, s2: real)
    requires s1 <= s2
    ensures LevelFor(s1).Rank() <= LevelFor(s2).Rank()
  {
    ReachedMonotone(s1, s2, Thresholds);
  }

  predicate BullyingFlagged(b: Option<BullyingResult>) { b.Some? && b.value.isBullying }
  predicate UnsafeFlagged(u: Option<UnsafeResult>) { u.Some? && u.value.isUnsafe }

  function BullyingFinding(b: BullyingResult): string {
    "Bullying detected (" + b.severityRaw + ")"
  }

  function UnsafeFinding(u: UnsafeResult): string {
    "Unsafe content: " + Join(", ", u.categories)
  }

  /** The findings sentence: the fixed all-clear text exactly when nothing was flagged,
      otherwise the flagged findings, bullying first, joined with ". ". */
  function Summary(b: Option<BullyingResult>, u: Option<UnsafeResult>): (r: string)
    ensures r == NoConcerns <==> !BullyingFlagged(b) && !UnsafeFlagged(u)
    ensures BullyingFlagged(b) && !UnsafeFlagged(u) ==> r == BullyingFinding(b.value)
    ensures !BullyingFlagged(b) && UnsafeFlagged(u) ==> r == UnsafeFinding(u.value)
    ensures BullyingFlagged(b) && UnsafeFlagged(u) ==> r == BullyingFinding(b.value) + ". " + UnsafeFinding(u.value)
  {
    var findings := (if BullyingFlagged(b) then [BullyingFinding(b.value)] else [])
                    + (if UnsafeFlagged(u) then [UnsafeFinding(u.value)] else []);
    if |findings| == 0 then NoConcerns
    else
      var r := Join(". ", findings);
      assert r[0] == findings[0][0];
      assert r[0] != NoConcerns[0];
      r
  }

  /** The priority of an action; 0 for anything that is not one of the three named ones. */
  function ActionRank(a: string): nat {
    if a == ImmediateIntervention then 3
    else if a == FlagForModerator then 2
    else if a == Monitor then 1
    else 0
  }

  /** Whether one of the present results recommends `a`. */
  predicate Recommends(a: string, b: Option<BullyingResult>, u: Option<UnsafeResult>) {
    (b.Some? && b.value.recommendedAction == a) || (u.Some? && u.value.recommendedAction == a)
  }

  /** The most urgent named action either result recommends, or "none". */
  function RecommendedAction(b: Option<BullyingResult>, u: Option<UnsafeResult>): (r: string)
    ensures r == NoAction || (ActionRank(r) > 0 && Recommends(r, b, u))
    ensures forall a :: Recommends(a, b, u) ==> ActionRank(a) <= ActionRank(r)
  {
    if Recommends(ImmediateIntervention, b, u) then ImmediateIntervention
    else if Recommends(FlagForModerator, b, u) then FlagForModerator
    else if Recommends(Monitor, b, u) then Monitor
    else NoAction
  }

  /** The combined result once the requested calls have succeeded. */
  function Aggregate(input: AnalyzeInput, b: Option<BullyingResult>, u: Option<UnsafeResult>): (r: AnalyzeResult)
    ensures b.Some? ==> r.riskScore >= b.value.riskScore
    ensures u.Some? ==> r.riskScore >= u.value.riskScore
    ensures || (r.riskScore == 0.0 && (b.None? || u.None?))
            || (b.Some? && r.riskScore == b.value.riskScore)
            || (u.Some? && r.riskScore == u.value.riskScore)
    ensures r.riskLevel.Rank() == Reached(r.riskScore, Thresholds)
    ensures r.summary == NoConcerns <==> !BullyingFlagged(b) && !UnsafeFlagged(u)
    ensures r.recommendedAction == NoAction || (ActionRank(r.recommendedAction) > 0 && Recommends(r.recommendedAction, b, u))
    ensures forall a :: Recommends(a, b, u) ==> ActionRank(a) <= ActionRank(r.recommendedAction)
    ensures r.bullying == b && r.unsafe == u
    ensures r.externalId == input.externalId && r.customerId == input.customerId && r.metadata == input.metadata
  {
    var score := MaxRiskScore(b, u);
    AnalyzeResult(LevelFor(score), score, Summary(b, u), b, u, RecommendedAction(b, u),
                  input.externalId, input.customerId, input.metadata)
  }

  /** A failed call's outcome, carried over to the composite's result type. */
  function Propagate<A, B>(o: Outcome<A>): (r: Outcome<B>)
    requires !o.Ok?
    ensures r.Failed? == o.Failed? && r.Cancelled? == o.Cancelled? && r.Foreign? == o.Foreign?
    ensures o.Failed? ==> r.error == o.error
  {
    match o
    case Failed(e) => Failed(e)
    case Cancelled => Cancelled
    case Foreign => Foreign
  }

  /** Whether a composite failure is the one a call ended with. */
  predicate SameEnd<A, B>(r: Outcome<A>, o: Outcome<B>) {
    !o.Ok? && r.Failed? == o.Failed? && r.Cancelled? == o.Cancelled? && r.Foreign? == o.Foreign?
    && (o.Failed? ==> r.error == o.error)
  }

  /** `AnalyzeAsync`. The content is checked first; then each requested call either succeeds
      or its failure becomes the composite's, the bullying call's before the unsafe call's. */
  function AnalyzeCall(input: AnalyzeInput, bullyingCall: Outcome<BullyingResult>,
                       unsafeCall: Outcome<UnsafeResult>): (r: Outcome<AnalyzeResult>)
    ensures Requests.ValidateContentLength(input.content).Reject? ==>
              r == Failed(Requests.ValidateContentLength(input.content).error)
    ensures r.Ok? <==> Requests.ValidateContentLength(input.content).Pass?
                       && (WantsBullying(input) ==> bullyingCall.Ok?)
                       && (WantsUnsafe(input) ==> unsafeCall.Ok?)
    ensures r.Ok? ==> r.value == Aggregate(input,
                                   if WantsBullying(input) then Some(bullyingCall.value) else None,
                                   if WantsUnsafe(input) then Some(unsafeCall.value) else None)
    ensures !r.Ok? && Requests.ValidateContentLength(input.content).Pass? ==>
              (WantsBullying(input) && SameEnd(r, bullyingCall))
              || (WantsUnsafe(input) && SameEnd(r, unsafeCall))
    ensures (WantsBullying(input) && !bullyingCall.Ok? && Requests.ValidateContentLength(input.content).Pass?)
            ==> SameEnd(r, bullyingCall)
  {
    match Requests.ValidateContentLength(input.content)
    case Reject(e) => Failed(e)
    case Pass =>
      if WantsBullying(input) && !bullyingCall.Ok? then Propagate(bullyingCall)
      else if WantsUnsafe(input) && !unsafeCall.Ok? then Propagate(unsafeCall)
      else Ok(Aggregate(input,
                        if WantsBullying(input) then Some(bullyingCall.value) else None,
                        if WantsUnsafe(input) then Some(unsafeCall.value) else None))
  }

  /** A call that was not requested has no effect on the result. */
  lemma UnrequestedCallsIgnored(input: AnalyzeInput, b1: Outcome<BullyingResult>, b2: Outcome<BullyingResult>,
                                u1: Outcome<UnsafeResult>, u2: Outcome<UnsafeResult>)
    ensures !WantsBullying(input) ==> AnalyzeCall(input, b1, u1) == AnalyzeCall(input, b2, u1)
    ensures !WantsUnsafe(input) ==> AnalyzeCall(input, b1, u1) == AnalyzeCall(input, b1, u2)
  {
  }

  /** A check list naming neither detector (say, only "grooming") yields the all-clear result. */
  lemma NoDetectorRequested(input: AnalyzeInput, b: Outcome<BullyingResult>, u: Outcome<UnsafeResult>)
    requires input.checks == Some(["grooming"])
    requires 0 < Utf16Length(input.content) <= Requests.MaxContentLength
    ensures AnalyzeCall(input, b, u).Ok?
    ensures AnalyzeCall(input, b, u).value.riskLevel == Enums.RiskLevel.Safe
    ensures AnalyzeCall(input, b, u).value.riskScore == 0.0
    ensures AnalyzeCall(input, b, u).value.summary == NoConcerns
    ensures AnalyzeCall(input, b, u).value.recommendedAction == NoAction
  {
  }

  /** A severe bullying result next to a clean unsafe result: the composite is critical,
      carries the bullying score, and its summary mentions bullying only. */
  lemma SevereBullyingExample(input: AnalyzeInput, b: BullyingResult, u: UnsafeResult)
    requires input.checks.None? && 0 < Utf16Length(input.content) <= Requests.MaxContentLength
    requires b.isBullying && b.severityRaw == "high" && b.riskScore == 0.95
             && b.recommendedAction == FlagForModerator
    requires !u.isUnsafe && u.riskScore == 0.2 && u.recommendedAction == Monitor
    ensures AnalyzeCall(input, Ok(b), Ok(u)).Ok?
    ensures AnalyzeCall(input, Ok(b), Ok(u)).value.riskLevel == Enums.RiskLevel.Critical
    ensures AnalyzeCall(input, Ok(b), Ok(u)).value.riskScore == 0.95
    ensures AnalyzeCall(input, Ok(b), Ok(u)).value.summary == "Bullying detected (high)"
    ensures AnalyzeCall(input, Ok(b), Ok(u)).value.recommendedAction == FlagForModerator
  {
    assert WantsBullying(input) && WantsUnsafe(input);
  }
}

=== FILE: backoff.dfy ===
/** Exponential backoff between retries: `retryDelay * 2^attempt` plus a random jitter
    below a quarter of that, capped at 30 seconds. The random draw is a parameter. */
module Backoff {
  import Decimal

  const MaxBackoffMs: int := 30_000

  function Pow2(n: nat): (r: nat)
    ensures r >= 1
  {
    if n == 0 then 1 else 2 * Pow2(n - 1)
  }

  /** `_retryDelay * (1 << attempt)` */
  function BaseDelay(retryDelay: nat, attempt: nat): nat {
    retryDelay * Pow2(attempt)
  }

  /** `(int)(delay * 0.25)`: truncating a non-negative quarter is integer division by 4. */
  function JitterBound(retryDelay: nat, attempt: nat): nat {
    BaseDelay(retryDelay, attempt) / 4
  }

  /** What `Random.Shared.Next(0, bound)` can return: a value in `[0, bound)`, or 0 when
      the bound is 0. */
  predicate ValidJitter(jitter: int, bound: nat) {
    if bound == 0 then jitter == 0 else 0 <= jitter < bound
  }

  /** The C# arithmetic stays exact: the shift count is below 31 and the sum of base delay
      and jitter fits in an `int`. */
  predicate Fits(retryDelay: nat, attempt: nat) {
    attempt < 31 && BaseDelay(retryDelay, attempt) + JitterBound(retryDelay, attempt) <= Decimal.Int32Max
  }

  /** `CalculateBackoff(attempt)` with the random draw `jitter`. */
  function CalculateBackoff(retryDelay: nat, attempt: nat, jitter: int): (r: int)
    requires Fits(retryDelay, attempt)
    requires ValidJitter(jitter, JitterBound(retryDelay, attempt))
    ensures 0 <= r <= MaxBackoffMs
    ensures r >= BaseDelay(retryDelay, attempt) || r == MaxBackoffMs
    ensures r == MaxBackoffMs
         || (JitterBound(retryDelay, attempt) == 0 && r == BaseDelay(retryDelay, attempt))
         || r < BaseDelay(retryDelay, attempt) + JitterBound(retryDelay, attempt)
  {
    var delay := BaseDelay(retryDelay, attempt);
    if delay + jitter < MaxBackoffMs then delay + jitter else MaxBackoffMs
  }

  lemma {:induction false} Pow2Monotone(a: nat, b: nat)
    requires a <= b
    ensures Pow2(a) <= Pow2(b)
  {
    if a < b {
      Pow2Monotone(a, b - 1);
    }
  }

  /** The base delay never shrinks from one attempt to the next. */
  lemma BaseDelayMonotone(retryDelay: nat, a: nat, b: nat)
    requires a <= b
    ensures BaseDelay(retryDelay, a) <= BaseDelay(retryDelay, b)
  {
    Pow2Monotone(a, b);
  }

  /** Once the base delay reaches the cap, the jitter no longer matters. */
  lemma BackoffSaturates(retryDelay: nat, attempt: nat, jitter: int)
    requires Fits(retryDelay, attempt)
    requires ValidJitter(jitter, JitterBound(retryDelay, attempt))
    requires BaseDelay(retryDelay, attempt) >= MaxBackoffMs
    ensures CalculateBackoff(retryDelay, attempt, jitter) == MaxBackoffMs
  {
  }

  /** With the default one-second delay the first three backoffs lie in [1000, 1250),
      [2000, 2500) and [4000, 5000). */
  lemma DefaultSchedule(j0: int, j1: int, j2: int)
    requires ValidJitter(j0, JitterBound(1_000, 0))
    requires ValidJitter(j1, JitterBound(1_000, 1))
    requires ValidJitter(j2, JitterBound(1_000, 2))
    ensures Fits(1_000, 0) && Fits(1_000, 1) && Fits(1_000, 2)
    ensures 1_000 <= CalculateBackoff(1_000, 0, j0) < 1_250
    ensures 2_000 <= CalculateBackoff(1_000, 1, j1) < 2_500
    ensures 4_000 <= CalculateBackoff(1_000, 2, j2) < 5_000
  {
    assert Pow2(2) == 4;
  }
}

=== FILE: classifier.dfy ===
/** Turning a failed exchange into an error of the hierarchy: the best-effort parse of an
    error body, the HTTP status table, the mapping of transport faults, and the
    retryability verdict. */
module Classifier {
  import opened Wrappers
  import opened Exceptions
  import Decimal

  const DefaultMessage: string := "Request failed"

  /** One member of the error object as `TryGetProperty` and `GetString` see it. */
  datatype Field =
    | Absent                      // the property is missing
    | Null                        // JSON null: `GetString()` returns null
    | Text(value: string)         // a JSON string
    | NonString(rendered: string) // any other JSON value: `GetString()` throws; `rendered` is its `ToString()`

  /** An error response body. `Opaque` covers everything that yields no error object:
      text that is not JSON, a root that is not an object, no "error" member, or an
      "error" member that is not an object. */
  datatype ErrorBody =
    | Opaque
    | Envelope(message: Field, code: Field, suggestion: Field, details: Field)

  datatype ParsedError = ParsedError(message: string, info: ApiInfo)

  /** `GetString()` on a member that does not throw. */
  function StringOf(f: Field): Option<string>
    requires !f.NonString?
  {
    if f.Text? then Some(f.value) else None
  }

  /** `detEl.ToString()`: never throws; JSON null renders as the empty string. */
  function Rendered(f: Field): Option<string> {
    match f
    case Absent => None
    case Null => Some("")
    case Text(s) => Some(s)
    case NonString(r) => Some(r)
  }

  /** The try-block of `HandleErrorResponse`: members are read in the order message, code,
      suggestion, details; the first `GetString()` that throws ends the block, and the
      empty catch keeps whatever was read before it. */
  function ParseErrorBody(body: ErrorBody): (p: ParsedError)
    ensures body.Opaque? ==> p == ParsedError(DefaultMessage, NoInfo)
    ensures p.message == DefaultMessage || (body.Envelope? && body.message == Text(p.message))
    ensures p.info.code.Some? ==> body.Envelope? && body.code == Text(p.info.code.value)
    ensures p.info.suggestion.Some? ==> body.Envelope? && body.suggestion == Text(p.info.suggestion.value)
    ensures p.info.details.Some? ==> body.Envelope? && Rendered(body.details) == p.info.details
    ensures body.Envelope? && !body.message.NonString? && !body.code.NonString? && !body.suggestion.NonString?
            ==> p.message == StringOf(body.message).GetOr(DefaultMessage)
                && p.info == ApiInfo(StringOf(body.code), Rendered(body.details), StringOf(body.suggestion))
    ensures body.Envelope? && body.message.NonString? ==> p == ParsedError(DefaultMessage, NoInfo)
    ensures body.Envelope? && !body.message.NonString? && body.code.NonString?
            ==> p == ParsedError(StringOf(body.message).GetOr(DefaultMessage), NoInfo)
    ensures body.Envelope? && !body.message.NonString? && !body.code.NonString? && body.suggestion.NonString?
            ==> p == ParsedError(StringOf(body.message).GetOr(DefaultMessage), ApiInfo(StringOf(body.code), None, None))
  {
    match body
    case Opaque => ParsedError(DefaultMessage, NoInfo)
    case Envelope(m, c, s, d) =>
      if m.NonString? then ParsedError(DefaultMessage, NoInfo)
      else
        var message := StringOf(m).GetOr(DefaultMessage);
        if c.NonString? then ParsedError(message, NoInfo)
        else
          var code := StringOf(c);
          if s.NonString? then ParsedError(message, ApiInfo(code, None, None))
          else ParsedError(message, ApiInfo(code, Rendered(d), StringOf(s)))
  }

  /** The status table of the service's error contract, by kind. */
  function StatusKind(status: int): ErrorKind {
    if status == 400 then ValidationKind
    else if status == 401 then AuthenticationKind
    else if status == 403 then TierAccessKind
    else if status == 404 then NotFoundKind
    else if status == 429 then RateLimitKind
    else if status >= 500 then ServerKind
    else GenericKind
  }

  /** `HandleErrorResponse`: the error a non-success response raises. The local
      `retryAfter` is never assigned, so a rate-limit error never carries a retry-after
      value. */
  function HandleErrorResponse(status: int, body: ErrorBody): (e: SafeNestError)
    ensures e.Kind() == StatusKind(status)
    ensures e.StatusCode() == Some(status)
    ensures e.message == ParseErrorBody(body).message
    ensures e.Info() == ParseErrorBody(body).info
    ensures e.RetryAfter().None?
  {
    var p := ParseErrorBody(body);
    var retryAfter: Option<int> := None;
    match status
    case 400 => Validation(p.message, p.info)
    case 401 => Authentication(p.message, p.info)
    case 403 => TierAccess(p.message, p.info)
    case 404 => NotFound(p.message, p.info)
    case 429 => RateLimit(p.message, retryAfter, p.info)
    case _ =>
      if status >= 500 then Server(p.message, status, p.info)
      else Generic(p.message, Some(status), p.info)
  }

  /** The kind and status of the raised error depend on the status code alone. */
  lemma KindIgnoresBody(status: int, b1: ErrorBody, b2: ErrorBody)
    ensures HandleErrorResponse(status, b1).Kind() == HandleErrorResponse(status, b2).Kind()
    ensures HandleErrorResponse(status, b1).StatusCode() == HandleErrorResponse(status, b2).StatusCode()
  {
  }

  /** A body with no readable error object still yields a classified error, with the
      default message and no payload. */
  lemma OpaqueBodyGivesDefaultMessage(status: int)
    ensures HandleErrorResponse(status, Opaque).message == DefaultMessage
    ensures HandleErrorResponse(status, Opaque).Info() == NoInfo
  {
  }

  /** A failure of an exchange other than an error status. */
  datatype Fault =
    | Cancellation(callerRequested: bool) // `OperationCanceledException`; whether the caller's token was cancelled
    | HttpFailure(message: string)        // `HttpRequestException`
    | Unexpected                          // any other exception: serialisation, `InvalidOperationException`, ...

  /** The catch clauses of `PerformRequestAsync`: the caller's cancellation is re-raised,
      any other cancellation is the internal deadline, an HTTP failure is a network error,
      and every other exception escapes unchanged. */
  function ClassifyFault<T>(timeoutMs: int, path: string, f: Fault): (o: Outcome<T>)
    ensures o.Cancelled? <==> f == Cancellation(true)
    ensures o.Foreign? <==> f.Unexpected?
    ensures o.Failed? <==> f == Cancellation(false) || f.HttpFailure?
    ensures o.Failed? ==> o.error.Kind() == (if f.HttpFailure? then NetworkKind else TimeoutKind)
    ensures o.Failed? ==> o.error.StatusCode().None?
  {
    match f
    case Cancellation(true) => Cancelled
    case Cancellation(false) =>
      Failed(Timeout("Request to " + path + " timed out after " + Decimal.IntToString(timeoutMs) + "ms"))
    case HttpFailure(m) => Failed(Network("Network error: " + m))
    case Unexpected => Foreign
  }

  /** `IsRetryable`: server errors, network errors and timeouts. */
  predicate IsRetryable(e: SafeNestError) {
    e.Server? || e.Network? || e.Timeout?
  }

  /** Exactly the server, network and timeout kinds are retryable; a rate-limit error is
      not, since the loop catches it under its own filter. */
  lemma RetryableKinds(e: SafeNestError)
    ensures IsRetryable(e) <==> e.Kind() in {ServerKind, NetworkKind, TimeoutKind}
  {
  }
}

=== FILE: client.dfy ===
/** The two constructors of the client and the configuration they accept. */
module Client {
  import opened Wrappers
  import opened Text
  import opened Models
  import opened Exceptions
  import Metadata
  import Retry

  /** The `ArgumentException` or `ArgumentOutOfRangeException` a constructor throws. */
  datatype ArgumentError = ApiKeyRequired | ApiKeyTooShort | TimeoutOutOfRange | RetriesOutOfRange

  /** The read-only fields a constructed client keeps. */
  datatype ClientConfig = ClientConfig(
    apiKey: string,
    timeout: int,
    maxRetries: int,
    retryDelay: int,
    baseUrl: string,
    ownsHttpClient: bool)

  /** `string.IsNullOrWhiteSpace`, with null as `None`. */
  predicate IsNullOrWhiteSpace(s: Option<string>) {
    s.None? || IsBlank(s.value)
  }

  /** The checks of `SafeNestClient(apiKey, options)`, in the order the constructor makes
      them; a null `options` means the defaults. */
  function NewClient(apiKey: Option<string>, options: Option<SafeNestOptions>): (r: Result<ClientConfig, ArgumentError>)
    ensures var o := options.GetOr(DefaultOptions);
            r.Success? <==> !IsNullOrWhiteSpace(apiKey) && Utf16Length(apiKey.value) >= 10
                            && 1_000 <= o.timeout <= 120_000 && 0 <= o.retries <= 10
    ensures IsNullOrWhiteSpace(apiKey) ==> r == Failure(ApiKeyRequired)
    ensures !IsNullOrWhiteSpace(apiKey) && Utf16Length(apiKey.value) < 10 ==> r == Failure(ApiKeyTooShort)
    ensures var o := options.GetOr(DefaultOptions);
            r == Failure(TimeoutOutOfRange) <==> !IsNullOrWhiteSpace(apiKey) && Utf16Length(apiKey.value) >= 10
                                                 && !(1_000 <= o.timeout <= 120_000)
    ensures var o := options.GetOr(DefaultOptions);
            r == Failure(RetriesOutOfRange) <==> !IsNullOrWhiteSpace(apiKey) && Utf16Length(apiKey.value) >= 10
                                                 && 1_000 <= o.timeout <= 120_000 && !(0 <= o.retries <= 10)
    ensures r.Success? ==> var o := options.GetOr(DefaultOptions);
            r.value == ClientConfig(apiKey.value, o.timeout, o.retries, o.retryDelay, o.baseUrl, true)
  {
    if IsNullOrWhiteSpace(apiKey) then Failure(ApiKeyRequired)
    else if Utf16Length(apiKey.value) < 10 then Failure(ApiKeyTooShort)
    else
      var o := options.GetOr(DefaultOptions);
      if o.timeout < 1_000 || o.timeout > 120_000 then Failure(TimeoutOutOfRange)
      else if o.retries < 0 || o.retries > 10 then Failure(RetriesOutOfRange)
      else Success(ClientConfig(apiKey.value, o.timeout, o.retries, o.retryDelay, o.baseUrl, true))
  }

  /** `SafeNestClient(apiKey, httpClient, options)`: only the key's presence is checked;
      the options are taken as they are and the client does not own the `HttpClient`. */
  function NewClientWithHttpClient(apiKey: Option<string>, options: Option<SafeNestOptions>): (r: Result<ClientConfig, ArgumentError>)
    ensures r.Success? <==> !IsNullOrWhiteSpace(apiKey)
    ensures r.Failure? ==> r.error == ApiKeyRequired
    ensures r.Success? ==> var o := options.GetOr(DefaultOptions);
            r.value == ClientConfig(apiKey.value, o.timeout, o.retries, o.retryDelay, o.baseUrl, false)
  {
    if IsNullOrWhiteSpace(apiKey) then Failure(ApiKeyRequired)
    else
      var o := options.GetOr(DefaultOptions);
      Success(ClientConfig(apiKey.value, o.timeout, o.retries, o.retryDelay, o.baseUrl, false))
  }

  /** The retry loop's view of a client; `retryDelay` must not be negative. */
  function RetryConfigOf(c: ClientConfig): (cfg: Retry.RetryConfig)
    requires c.retryDelay >= 0
  {
    Retry.RetryConfig(c.timeout, c.maxRetries, c.retryDelay)
  }

  /** The default options pass the primary constructor's range checks. */
  lemma DefaultOptionsAccepted(apiKey: string)
    requires !IsBlank(apiKey) && Utf16Length(apiKey) >= 10
    ensures NewClient(Some(apiKey), None).Success?
    ensures NewClient(Some(apiKey), None).value.timeout == 30_000
    ensures NewClient(Some(apiKey), None).value.maxRetries == 3
    ensures NewClient(Some(apiKey), None).value.retryDelay == 1_000
  {
  }

  /** Every configuration the primary constructor accepts is accepted by the other one,
      which also accepts out-of-range options, a negative retry count among them. */
  lemma HttpClientConstructorIsLaxer(apiKey: Option<string>, options: Option<SafeNestOptions>)
    ensures NewClient(apiKey, options).Success? ==> NewClientWithHttpClient(apiKey, options).Success?
    ensures !IsNullOrWhiteSpace(apiKey) && options == Some(SafeNestOptions(1_000, -1, 1_000, ""))
            ==> NewClient(apiKey, options).Failure? && NewClientWithHttpClient(apiKey, options).Success?
  {
  }

  /** A client from the primary constructor makes between one and eleven attempts per call:
      its retry count was checked to lie in 0..10. */
  lemma PrimaryClientAttempts<T>(apiKey: Option<string>, options: Option<SafeNestOptions>, path: string,
                                 st: Metadata.ClientState, script: seq<Retry.Step<T>>)
    requires NewClient(apiKey, options).Success? && NewClient(apiKey, options).value.retryDelay >= 0
    requires Retry.WellFormed(RetryConfigOf(NewClient(apiKey, options).value), script)
    ensures 0 <= NewClient(apiKey, options).value.maxRetries <= 10
    ensures var r := Retry.RequestWithRetry(RetryConfigOf(NewClient(apiKey, options).value), path, st, script);
            1 <= r.attempts <= 11
  {
  }

  /** The constructor taking an `HttpClient` accepts a retry count of -1; every call of such a
      client then sends nothing and fails with the exhausted-retries message. */
  lemma NegativeRetriesSendNothing<T>(apiKey: string, timeout: int, retryDelay: int, baseUrl: string, path: string,
                                      st: Metadata.ClientState, script: seq<Retry.Step<T>>)
    requires !IsBlank(apiKey) && retryDelay >= 0
    ensures NewClientWithHttpClient(Some(apiKey), Some(SafeNestOptions(timeout, -1, retryDelay, baseUrl))).Success?
    ensures var c := NewClientWithHttpClient(Some(apiKey), Some(SafeNestOptions(timeout, -1, retryDelay, baseUrl))).value;
            Retry.RequestWithRetry(RetryConfigOf(c), path, st, script)
              == Retry.Run(Failed(Plain(Retry.ExhaustedMessage)), 0, [], st)
  {
  }

  /** The constructor taking an `HttpClient` accepts a timeout below -1, which `CancelAfter`
      rejects: every call of such a client ends with that exception after one attempt. */
  lemma NegativeTimeoutThrows<T>(apiKey: string, timeout: int, retries: int, retryDelay: int, baseUrl: string,
                                 path: string, st: Metadata.ClientState, script: seq<Retry.Step<T>>)
    requires !IsBlank(apiKey) && timeout < -1 && retries >= 0 && retryDelay >= 0
    requires Retry.WellFormed(Retry.RetryConfig(timeout, retries, retryDelay), script)
    ensures NewClientWithHttpClient(Some(apiKey), Some(SafeNestOptions(timeout, retries, retryDelay, baseUrl))).Success?
    ensures var c := NewClientWithHttpClient(Some(apiKey), Some(SafeNestOptions(timeout, retries, retryDelay, baseUrl))).value;
            var r := Retry.RequestWithRetry(RetryConfigOf(c), path, st, script);
            r.outcome == Foreign && r.attempts == 1 && r.state == st
  {
    Retry.RejectedDeadlineEndsCall(Retry.RetryConfig(timeout, retries, retryDelay), path, st, script);
  }
}

=== FILE: decimal.dfy ===
/** Decimal integers as the client reads them from response headers (`int.TryParse`,
    `long.TryParse`) and writes them into messages (string interpolation of an `int`). */
module Decimal {
  import opened Wrappers

  const Int32Min: int := -0x8000_0000
  const Int32Max: int := 0x7FFF_FFFF
  const Int64Min: int := -0x8000_0000_0000_0000
  const Int64Max: int := 0x7FFF_FFFF_FFFF_FFFF

  predicate IsDigit(c: char) {
    '0' <= c <= '9'
  }

  predicate AllDigits(s: string) {
    forall i :: 0 <= i < |s| ==> IsDigit(s[i])
  }

  function DigitChar(d: nat): (c: char)
    requires d < 10
    ensures IsDigit(c)
  {
    ('0' as int + d) as char
  }

  function DigitValue(c: char): (d: nat)
    requires IsDigit(c)
    ensures d < 10 && DigitChar(d) == c
  {
    c as int - '0' as int
  }

  /** The number a string of decimal digits denotes, most significant digit first. */
  function DigitsValue(s: string): nat
    requires AllDigits(s)
  {
    if |s| == 0 then 0 else DigitsValue(s[..|s| - 1]) * 10 + DigitValue(s[|s| - 1])
  }

  /** The shortest decimal rendering of `n`. */
  function NatToString(n: nat): (r: string)
    ensures |r| >= 1 && AllDigits(r)
  {
    if n < 10 then [DigitChar(n)] else NatToString(n / 10) + [DigitChar(n % 10)]
  }

  /** Invariant-culture rendering of an integer: a minus sign for negative values. */
  function IntToString(i: int): (r: string)
    ensures |r| >= 1
    ensures r[0] == '-' <==> i < 0
  {
    if i < 0 then "-" + NatToString(-i) else NatToString(i)
  }

  /** `TryParse` into a type whose range is `lo..hi`: an optional sign followed by at least
      one decimal digit, rejected when absent (null) or when the value falls outside the range. */
  function TryParse(s: Option<string>, lo: int, hi: int): (r: Option<int>)
    ensures r.Some? ==> s.Some? && lo <= r.value <= hi
  {
    if s.None? then None
    else
      var t := s.value;
      var negative := |t| > 0 && t[0] == '-';
      var start := if |t| > 0 && (t[0] == '-' || t[0] == '+') then 1 else 0;
      var digits := t[start..];
      if |digits| == 0 || !AllDigits(digits) then None
      else
        var v: int := if negative then 0 - DigitsValue(digits) as int else DigitsValue(digits);
        if lo <= v <= hi then Some(v) else None
  }

  /** `int.TryParse` */
  function TryParseInt32(s: Option<string>): Option<int> {
    TryParse(s, Int32Min, Int32Max)
  }

  /** `long.TryParse` */
  function TryParseInt64(s: Option<string>): Option<int> {
    TryParse(s, Int64Min, Int64Max)
  }

  lemma {:induction false} DigitsOfNatToString(n: nat)
    ensures DigitsValue(NatToString(n)) == n
  {
    if n >= 10 {
      var s := NatToString(n);
      assert s[..|s| - 1] == NatToString(n / 10);
      DigitsOfNatToString(n / 10);
    }
  }

  /** Rendering an in-range integer and parsing it back yields the integer. */
  lemma ParseRoundTrip(i: int, lo: int, hi: int)
    requires lo <= i <= hi
    ensures TryParse(Some(IntToString(i)), lo, hi) == Some(i)
  {
    if i < 0 {
      assert IntToString(i)[1..] == NatToString(-i);
      DigitsOfNatToString(-i);
    } else {
      DigitsOfNatToString(i);
    }
  }

  /** A value outside the range never parses, however it is written. */
  lemma ParseOutOfRange(i: int, lo: int, hi: int)
    requires i < lo || hi < i
    ensures TryParse(Some(IntToString(i)), lo, hi).None?
  {
    ParseRoundTrip(i, i, i);
  }
}

=== FILE: enums.dfy ===
/** The client's enumerations and their wire strings: each `ToApiString` is the table the
    client sends, each `Parse*` the case-insensitive table it reads back, with a fixed
    fallback for unrecognised or null input. */
module Enums {
  import opened Wrappers
  import opened Text

  datatype Severity = Low | Medium | High | Critical {
    function ToApiString(): string {
      match this
      case Low => "low"
      case Medium => "medium"
      case High => "high"
      case Critical => "critical"
    }
  }

  datatype GroomingRisk = None | Low | Medium | High | Critical {
    function ToApiString(): string {
      match this
      case None => "none"
      case Low => "low"
      case Medium => "medium"
      case High => "high"
      case Critical => "critical"
    }
  }

  datatype RiskLevel = Safe | Low | Medium | High | Critical {
    function ToApiString(): string {
      match this
      case Safe => "safe"
      case Low => "low"
      case Medium => "medium"
      case High => "high"
      case Critical => "critical"
    }

    /** Position in the order Safe < Low < Medium < High < Critical. */
    function Rank(): nat {
      match this
      case Safe => 0
      case Low => 1
      case Medium => 2
      case High => 3
      case Critical => 4
    }
  }

  datatype RiskCategory = Bullying | Grooming | Unsafe | SelfHarm | Other

  datatype AnalysisType = Bullying | Grooming | Unsafe | Emotions

  datatype EmotionTrend = Improving | Stable | Worsening {
    /** The strings `ParseEmotionTrend` recognises (the client has no `ToApiString` for it). */
    function WireName(): string {
      match this
      case Improving => "improving"
      case Stable => "stable"
      case Worsening => "worsening"
    }
  }

  datatype Audience = Child | Parent | Educator | Platform {
    function ToApiString(): string {
      match this
      case Child => "child"
      case Parent => "parent"
      case Educator => "educator"
      case Platform => "platform"
    }
  }

  datatype IncidentStatus = New | Reviewed | Resolved

  datatype MessageRole = Adult | Child | Unknown {
    function ToApiString(): string {
      match this
      case Adult => "adult"
      case Child => "child"
      case Unknown => "unknown"
    }
  }

  datatype WebhookEventType = IncidentCritical | IncidentHigh | GroomingDetected | SelfHarmDetected | BullyingSevere {
    function ToApiString(): string {
      match this
      case IncidentCritical => "incident.critical"
      case IncidentHigh => "incident.high"
      case GroomingDetected => "grooming.detected"
      case SelfHarmDetected => "self_harm.detected"
      case BullyingSevere => "bullying.severe"
    }
  }

  /** `value?.ToLowerInvariant()`: the key every `Parse*` table is looked up with. */
  function Key(value: Option<string>): Option<string> {
    if value.Some? then Some(Lower(value.value)) else Option.None
  }

  function ParseSeverity(value: Option<string>): (r: Severity)
    ensures forall s: Severity :: Key(value) == Some(s.ToApiString()) ==> r == s
    ensures r != Severity.Low ==> Key(value) == Some(r.ToApiString())
  {
    match Key(value)
    case Some("low") => Severity.Low
    case Some("medium") => Severity.Medium
    case Some("high") => Severity.High
    case Some("critical") => Severity.Critical
    case _ => Severity.Low
  }

  function ParseGroomingRisk(value: Option<string>): (r: GroomingRisk)
    ensures forall g: GroomingRisk :: Key(value) == Some(g.ToApiString()) ==> r == g
    ensures r != GroomingRisk.None ==> Key(value) == Some(r.ToApiString())
  {
    match Key(value)
    case Some("none") => GroomingRisk.None
    case Some("low") => GroomingRisk.Low
    case Some("medium") => GroomingRisk.Medium
    case Some("high") => GroomingRisk.High
    case Some("critical") => GroomingRisk.Critical
    case _ => GroomingRisk.None
  }

  /** Besides the five names `ToApiString` produces, "moderate" is read as Medium. */
  function ParseRiskLevel(value: Option<string>): (r: RiskLevel)
    ensures forall l: RiskLevel :: Key(value) == Some(l.ToApiString()) ==> r == l
    ensures Key(value) == Some("moderate") ==> r == RiskLevel.Medium
    ensures r != RiskLevel.Safe ==> Key(value) == Some(r.ToApiString()) || (r == RiskLevel.Medium && Key(value) == Some("moderate"))
  {
    match Key(value)
    case Some("safe") => RiskLevel.Safe
    case Some("low") => RiskLevel.Low
    case Some("medium") => RiskLevel.Medium
    case Some("moderate") => RiskLevel.Medium
    case Some("high") => RiskLevel.High
    case Some("critical") => RiskLevel.Critical
    case _ => RiskLevel.Safe
  }

  function ParseEmotionTrend(value: Option<string>): (r: EmotionTrend)
    ensures forall t: EmotionTrend :: Key(value) == Some(t.WireName()) ==> r == t
    ensures r != EmotionTrend.Stable ==> Key(value) == Some(r.WireName())
  {
    match Key(value)
    case Some("improving") => EmotionTrend.Improving
    case Some("stable") => EmotionTrend.Stable
    case Some("worsening") => EmotionTrend.Worsening
    case _ => EmotionTrend.Stable
  }

  lemma SeverityRoundTrip(s: Severity)
    ensures ParseSeverity(Some(s.ToApiString())) == s
  {
    LowerOfNoUpper(s.ToApiString());
  }

  lemma GroomingRiskRoundTrip(g: GroomingRisk)
    ensures ParseGroomingRisk(Some(g.ToApiString())) == g
  {
    LowerOfNoUpper(g.ToApiString());
  }

  lemma RiskLevelRoundTrip(l: RiskLevel)
    ensures ParseRiskLevel(Some(l.ToApiString())) == l
  {
    LowerOfNoUpper(l.ToApiString());
  }

  lemma EmotionTrendRoundTrip(t: EmotionTrend)
    ensures ParseEmotionTrend(Some(t.WireName())) == t
  {
    LowerOfNoUpper(t.WireName());
  }

  /** Every parser reads a string and its lower-case form alike. */
  lemma ParsersIgnoreCase(v: string)
    ensures ParseSeverity(Some(v)) == ParseSeverity(Some(Lower(v)))
    ensures ParseGroomingRisk(Some(v)) == ParseGroomingRisk(Some(Lower(v)))
    ensures ParseRiskLevel(Some(v)) == ParseRiskLevel(Some(Lower(v)))
    ensures ParseEmotionTrend(Some(v)) == ParseEmotionTrend(Some(Lower(v)))
  {
    LowerIdempotent(v);
  }

  /** Any value matching no wire string, null among them, reads as Low. */
  lemma SeverityFallBack(v: Option<string>)
    requires forall s: Severity :: Key(v) != Some(s.ToApiString())
    ensures ParseSeverity(v) == Severity.Low
  {
  }

  /** Any value matching no wire string, null among them, reads as None. */
  lemma GroomingRiskFallBack(v: Option<string>)
    requires forall g: GroomingRisk :: Key(v) != Some(g.ToApiString())
    ensures ParseGroomingRisk(v) == GroomingRisk.None
  {
  }

  /** Any value matching neither a wire string nor "moderate", null among them, reads as Safe. */
  lemma RiskLevelFallBack(v: Option<string>)
    requires forall l: RiskLevel :: Key(v) != Some(l.ToApiString())
    requires Key(v) != Some("moderate")
    ensures ParseRiskLevel(v) == RiskLevel.Safe
  {
  }

  /** Any value matching no wire string, null among them, reads as Stable. */
  lemma EmotionTrendFallBack(v: Option<string>)
    requires forall t: EmotionTrend :: Key(v) != Some(t.WireName())
    ensures ParseEmotionTrend(v) == EmotionTrend.Stable
  {
  }

  /** No two members of a table share a wire string. */
  lemma ToApiStringsInjective()
    ensures forall a: Severity, b: Severity :: a.ToApiString() == b.ToApiString() ==> a == b
    ensures forall a: GroomingRisk, b: GroomingRisk :: a.ToApiString() == b.ToApiString() ==> a == b
    ensures forall a: RiskLevel, b: RiskLevel :: a.ToApiString() == b.ToApiString() ==> a == b
    ensures forall a: EmotionTrend, b: EmotionTrend :: a.WireName() == b.WireName() ==> a == b
    ensures forall a: Audience, b: Audience :: a.ToApiString() == b.ToApiString() ==> a == b
    ensures forall a: MessageRole, b: MessageRole :: a.ToApiString() == b.ToApiString() ==> a == b
    ensures forall a: WebhookEventType, b: WebhookEventType :: a.ToApiString() == b.ToApiString() ==> a == b
  {
  }

  /** "moderate" is read as Medium, yet Medium is written as "medium": the RiskLevel
      table is not a bijection on strings. */
  lemma ModerateIsReadOnly()
    ensures ParseRiskLevel(Some("moderate")) == RiskLevel.Medium
    ensures forall l: RiskLevel :: l.ToApiString() != "moderate"
  {
    LowerOfNoUpper("moderate");
  }
}

=== FILE: exceptions.dfy ===
/** The client's exception hierarchy as one datatype: a constructor per exception class,
    each fixing the HTTP status code its class passes to the base constructor. Every value
    is built once and has no setters, so the fields never change after construction. */
module Exceptions {
  import opened Wrappers

  /** The optional API-supplied payload of an error response. `details` is the error
      body's `details` member rendered as text. */
  datatype ApiInfo = ApiInfo(code: Option<string>, details: Option<string>, suggestion: Option<string>)

  const NoInfo: ApiInfo := ApiInfo(None, None, None)

  /** Which class an error belongs to. */
  datatype ErrorKind =
    | GenericKind | AuthenticationKind | ValidationKind | NotFoundKind | RateLimitKind
    | TierAccessKind | ServerKind | TimeoutKind | NetworkKind

  datatype SafeNestError =
    | Generic(message: string, status: Option<int>, info: ApiInfo)
    | Authentication(message: string, info: ApiInfo)
    | Validation(message: string, info: ApiInfo)
    | NotFound(message: string, info: ApiInfo)
    | RateLimit(message: string, retryAfterSeconds: Option<int>, info: ApiInfo)
    | TierAccess(message: string, info: ApiInfo)
    | Server(message: string, httpStatus: int, info: ApiInfo)
    | Timeout(message: string)
    | Network(message: string)
  {
    function Kind(): ErrorKind {
      match this
      case Generic(_, _, _) => GenericKind
      case Authentication(_, _) => AuthenticationKind
      case Validation(_, _) => ValidationKind
      case NotFound(_, _) => NotFoundKind
      case RateLimit(_, _, _) => RateLimitKind
      case TierAccess(_, _) => TierAccessKind
      case Server(_, _, _) => ServerKind
      case Timeout(_) => TimeoutKind
      case Network(_) => NetworkKind
    }

    /** `SafeNestException.StatusCode` */
    function StatusCode(): Option<int> {
      match this
      case Generic(_, s, _) => s
      case Authentication(_, _) => Some(401)
      case Validation(_, _) => Some(400)
      case NotFound(_, _) => Some(404)
      case RateLimit(_, _, _) => Some(429)
      case TierAccess(_, _) => Some(403)
      case Server(_, s, _) => Some(s)
      case Timeout(_) => None
      case Network(_) => None
    }

    /** The API payload; timeouts and network faults are built from a message alone. */
    function Info(): ApiInfo {
      if Timeout? || Network? then NoInfo else info
    }

    /** `RateLimitException.RetryAfterSeconds`; no other class has it. */
    function RetryAfter(): Option<int> {
      if RateLimit? then retryAfterSeconds else None
    }
  }

  /** `new SafeNestException(message)`: no status code and no payload. */
  function Plain(message: string): (e: SafeNestError)
    ensures e.message == message
    ensures e.Kind() == GenericKind && e.StatusCode().None? && e.Info() == NoInfo
  {
    Generic(message, None, NoInfo)
  }

  /** Each class that fixes a status code always reports that code. */
  lemma StatusCodesFixedByClass(e: SafeNestError)
    ensures e.Kind() == AuthenticationKind ==> e.StatusCode() == Some(401)
    ensures e.Kind() == ValidationKind ==> e.StatusCode() == Some(400)
    ensures e.Kind() == NotFoundKind ==> e.StatusCode() == Some(404)
    ensures e.Kind() == RateLimitKind ==> e.StatusCode() == Some(429)
    ensures e.Kind() == TierAccessKind ==> e.StatusCode() == Some(403)
    ensures e.Server? ==> e.StatusCode() == Some(e.httpStatus)
  {
  }

  /** Timeouts and network faults carry neither a status code nor an API payload. */
  lemma TransportErrorsCarryNoPayload(e: SafeNestError)
    requires e.Kind() == TimeoutKind || e.Kind() == NetworkKind
    ensures e.StatusCode().None?
    ensures e.Info().code.None? && e.Info().details.None? && e.Info().suggestion.None?
    ensures e.RetryAfter().None?
  {
  }

  /** A rate-limit error reports exactly the retry-after value it was built with. */
  lemma RetryAfterIsConstructorArgument(message: string, after: Option<int>, info: ApiInfo)
    ensures RateLimit(message, after, info).RetryAfter() == after
    ensures RateLimit(message, after, info).Info() == info
  {
  }

  /** How one call into the client ends: with a value, with an error of the hierarchy
      above, with the caller's own cancellation (`OperationCanceledException` re-raised),
      or with an exception from outside the hierarchy that the client lets through
      (a `JsonException` from deserialising a malformed success body). */
  datatype Outcome<T> = Ok(value: T) | Failed(error: SafeNestError) | Cancelled | Foreign
}

=== FILE: executor.dfy ===
/** One HTTP exchange as `PerformRequestAsync` handles it: the response's metadata is
    recorded first, then a non-success status is classified, then a success body is
    deserialised. What the network does is a scripted `Exchange`. */
module Executor {
  import opened Wrappers
  import opened Exceptions
  import opened Classifier
  import opened Metadata

  /** `JsonSerializer.Deserialize<T>` of a success body. */
  datatype Decoded<T> =
    | Value(v: T)
    | NullLiteral  // the body is the JSON literal null
    | Malformed    // the body does not deserialise: `JsonException`

  /** What happened to one request. `errorBody` and `payload` are the two readings of one
      response text: the best-effort error parse and the typed deserialisation. */
  datatype Exchange<T> =
    | Faulted(fault: Fault)                      // sending failed before any response
    | BodyFaulted(headers: Headers, fault: Fault) // the response arrived; reading its body failed
    | Completed(status: int, headers: Headers, errorBody: ErrorBody, payload: Decoded<T>)

  /** `IsSuccessStatusCode` */
  predicate IsSuccessStatus(status: int) {
    200 <= status <= 299
  }

  const ParseFailureMessage: string := "Failed to parse API response"

  /** `CancelAfter` accepts -1 (no deadline) and every non-negative delay; anything below
      -1 makes it throw before the request is even built. Only the constructor taking an
      `HttpClient` lets such a timeout through. */
  predicate DeadlineAccepted(timeoutMs: int) {
    timeoutMs >= -1
  }

  /** How `PerformRequestAsync` ends for this exchange. It does not depend on the client's
      metadata state. */
  function Classify<T>(timeoutMs: int, path: string, x: Exchange<T>): (o: Outcome<T>)
    ensures !DeadlineAccepted(timeoutMs) ==> o == Foreign
    ensures o.Ok? <==> DeadlineAccepted(timeoutMs) && x.Completed? && IsSuccessStatus(x.status) && x.payload.Value?
    ensures o.Ok? ==> x.payload == Value(o.value)
    ensures o.Foreign? <==> || !DeadlineAccepted(timeoutMs)
                            || (x.Completed? && IsSuccessStatus(x.status) && x.payload.Malformed?)
                            || (!x.Completed? && x.fault.Unexpected?)
    ensures o.Cancelled? <==> DeadlineAccepted(timeoutMs) && !x.Completed? && x.fault == Cancellation(true)
    ensures DeadlineAccepted(timeoutMs) && x.Completed? && !IsSuccessStatus(x.status)
            ==> o.Failed? && o.error.Kind() == StatusKind(x.status) && o.error.StatusCode() == Some(x.status)
    ensures DeadlineAccepted(timeoutMs) && x.Completed? && IsSuccessStatus(x.status) && x.payload.NullLiteral?
            ==> o == Failed(Plain(ParseFailureMessage))
    ensures o.Failed? && o.error.RateLimit? ==> o.error.retryAfterSeconds.None?
    ensures DeadlineAccepted(timeoutMs) && !x.Completed? && x.fault.HttpFailure?
            ==> o.Failed? && o.error.Kind() == NetworkKind
    ensures DeadlineAccepted(timeoutMs) && !x.Completed? && x.fault == Cancellation(false)
            ==> o.Failed? && o.error.Kind() == TimeoutKind
  {
    if !DeadlineAccepted(timeoutMs) then Foreign
    else
      match x
      case Faulted(f) => ClassifyFault(timeoutMs, path, f)
      case BodyFaulted(_, f) => ClassifyFault(timeoutMs, path, f)
      case Completed(status, _, errorBody, payload) =>
        if !IsSuccessStatus(status) then Failed(HandleErrorResponse(status, errorBody))
        else
          match payload
          case Value(v) => Ok(v)
          case NullLiteral => Failed(Plain(ParseFailureMessage))
          case Malformed => Foreign
  }

  /** The metadata state after the exchange: headers are parsed whenever a response
      arrived, before its status is looked at, so error responses update the state too;
      a failure before any response, or a rejected deadline, leaves it alone. */
  function Observe<T>(timeoutMs: int, st: ClientState, x: Exchange<T>): ClientState
  {
    if !DeadlineAccepted(timeoutMs) || x.Faulted? then st else ParseResponseHeaders(st, x.headers)
  }

  /** An error status raises the same error whatever the success payload reading would
      have been, and records the headers exactly as a success would. */
  lemma ErrorResponsesRecordHeaders<T>(timeoutMs: int, path: string, st: ClientState, status: int,
                                      h: Headers, b: ErrorBody, p: Decoded<T>)
    requires DeadlineAccepted(timeoutMs) && !IsSuccessStatus(status)
    ensures Observe(timeoutMs, st, Completed(status, h, b, p)) == ParseResponseHeaders(st, h)
    ensures Classify(timeoutMs, path, Completed(status, h, b, p)) == Failed(HandleErrorResponse(status, b))
  {
  }

  /** How the recorded state relates to the outcome: every exchange that yields a value or
      an HTTP status error has recorded its response's headers, and so has one whose body
      could not be read; a failure before any response, or a deadline `CancelAfter`
      rejects, records nothing. */
  lemma OutcomeRecordsHeaders<T>(timeoutMs: int, path: string, st: ClientState, x: Exchange<T>)
    ensures !DeadlineAccepted(timeoutMs) || x.Faulted? ==> Observe(timeoutMs, st, x) == st
    ensures var o := Classify(timeoutMs, path, x);
            o.Ok? || (o.Failed? && o.error.StatusCode().Some?) ==> Observe(timeoutMs, st, x) == ParseResponseHeaders(st, x.headers)
    ensures DeadlineAccepted(timeoutMs) && x.BodyFaulted? ==> Observe(timeoutMs, st, x) == ParseResponseHeaders(st, x.headers)
    ensures Observe(timeoutMs, st, x) != st ==> DeadlineAccepted(timeoutMs) && !x.Faulted?
  {
    var o := Classify(timeoutMs, path, x);
    if o.Failed? && o.error.StatusCode().Some? {
      assert DeadlineAccepted(timeoutMs) && x.Completed?;
    }
  }
}

=== FILE: metadata.dfy ===
/** The per-client snapshot of the last response's metadata, and the header parser that
    replaces it after every exchange that produced a response. */
module Metadata {
  import opened Wrappers
  import opened Models
  import opened Text
  import Decimal

  /** One header line of a response. */
  datatype HeaderField = HeaderField(name: string, value: string)

  /** A response's headers in arrival order. `HttpHeaders` files each value under its name
      compared without regard to case, so the values of a header are the values of the
      fields whose names match it ignoring case, in the order they arrived. */
  type Headers = seq<HeaderField>

  /** The mutable properties of a client that calls update: `Usage`, `RateLimit`,
      `UsageWarning` and `LastRequestId`. */
  datatype ClientState = ClientState(
    usage: Option<Usage>,
    rateLimit: Option<RateLimitInfo>,
    usageWarning: Option<string>,
    lastRequestId: Option<string>)

  /** A freshly constructed client has observed nothing. */
  const InitialState: ClientState := ClientState(None, None, None, None)

  /** Header names are compared the way `HttpHeaders` compares them: ignoring case. */
  predicate NameMatches(f: HeaderField, name: string) {
    Lower(f.name) == Lower(name)
  }

  /** `GetHeader`: the first value filed under the name, or null when there is none. */
  function GetHeader(h: Headers, name: string): Option<string> {
    if |h| == 0 then None
    else if NameMatches(h[0], name) then Some(h[0].value)
    else GetHeader(h[1..], name)
  }

  /** A header is found exactly when some field carries its name, and the value found is
      that of the first such field. */
  lemma {:induction false} GetHeaderFindsFirst(h: Headers, name: string)
    ensures GetHeader(h, name).Some? <==> exists i :: 0 <= i < |h| && NameMatches(h[i], name)
    ensures GetHeader(h, name).Some? ==>
              exists i :: && 0 <= i < |h| && NameMatches(h[i], name) && GetHeader(h, name).value == h[i].value
                          && forall j :: 0 <= j < i ==> !NameMatches(h[j], name)
    decreases |h|
  {
    if |h| > 0 && !NameMatches(h[0], name) {
      GetHeaderFindsFirst(h[1..], name);
      assert forall i :: 1 <= i < |h| ==> h[i] == h[1..][i - 1];
      if GetHeader(h, name).Some? {
        var k :| && 0 <= k < |h[1..]| && NameMatches(h[1..][k], name) && GetHeader(h, name).value == h[1..][k].value
                 && forall j :: 0 <= j < k ==> !NameMatches(h[1..][j], name);
        assert forall j :: 0 <= j < k + 1 ==> !NameMatches(h[j], name) by {
          forall j | 0 <= j < k + 1 ensures !NameMatches(h[j], name) {
            if j > 0 { assert h[j] == h[1..][j - 1]; }
          }
        }
      }
    } else if |h| > 0 {
      assert NameMatches(h[0], name);
    }
  }

  /** The name asked for may be written in any case. */
  lemma {:induction false} GetHeaderIgnoresCase(h: Headers, name: string)
    ensures GetHeader(h, name) == GetHeader(h, Lower(name))
    decreases |h|
  {
    LowerIdempotent(name);
    if |h| > 0 {
      GetHeaderIgnoresCase(h[1..], name);
    }
  }

  /** A header sent as "X-Request-Id" is found under "x-request-id". */
  lemma MixedCaseNameFound()
    ensures GetHeader([HeaderField("X-Request-Id", "abc")], "x-request-id") == Some("abc")
  {
    assert Lower("X-Request-Id") == "x-request-id";
    assert Lower("x-request-id") == "x-request-id";
  }

  function IntHeader(h: Headers, name: string): Option<int> {
    Decimal.TryParseInt32(GetHeader(h, name))
  }

  function LongHeader(h: Headers, name: string): Option<int> {
    Decimal.TryParseInt64(GetHeader(h, name))
  }

  /** `ParseResponseHeaders`. */
  function ParseResponseHeaders(st: ClientState, h: Headers): (st': ClientState)
    ensures st'.lastRequestId == GetHeader(h, "x-request-id")
    ensures st'.usageWarning == GetHeader(h, "x-usage-warning")
    ensures st'.usage == st.usage
         || (st'.usage.Some?
             && IntHeader(h, "x-monthly-limit") == Some(st'.usage.value.limit)
             && IntHeader(h, "x-monthly-used") == Some(st'.usage.value.used)
             && IntHeader(h, "x-monthly-remaining") == Some(st'.usage.value.remaining))
    ensures IntHeader(h, "x-monthly-limit").Some? && IntHeader(h, "x-monthly-used").Some?
            && IntHeader(h, "x-monthly-remaining").Some?
            ==> st'.usage.Some?
                && st'.usage.value.limit == IntHeader(h, "x-monthly-limit").value
                && st'.usage.value.used == IntHeader(h, "x-monthly-used").value
                && st'.usage.value.remaining == IntHeader(h, "x-monthly-remaining").value
    ensures st'.rateLimit == st.rateLimit
         || (st'.rateLimit.Some?
             && IntHeader(h, "x-ratelimit-limit") == Some(st'.rateLimit.value.limit)
             && IntHeader(h, "x-ratelimit-remaining") == Some(st'.rateLimit.value.remaining)
             && st'.rateLimit.value.reset == LongHeader(h, "x-ratelimit-reset"))
    ensures IntHeader(h, "x-ratelimit-limit").Some? && IntHeader(h, "x-ratelimit-remaining").Some?
            ==> st'.rateLimit.Some?
                && st'.rateLimit.value.limit == IntHeader(h, "x-ratelimit-limit").value
                && st'.rateLimit.value.remaining == IntHeader(h, "x-ratelimit-remaining").value
                && st'.rateLimit.value.reset == LongHeader(h, "x-ratelimit-reset")
  {
    var requestId := GetHeader(h, "x-request-id");
    var limit := IntHeader(h, "x-monthly-limit");
    var used := IntHeader(h, "x-monthly-used");
    var remaining := IntHeader(h, "x-monthly-remaining");
    var usage :=
      if limit.Some? && used.Some? && remaining.Some?
      then Some(Usage(limit.value, used.value, remaining.value))
      else st.usage;
    var rlLimit := IntHeader(h, "x-ratelimit-limit");
    var rlRemaining := IntHeader(h, "x-ratelimit-remaining");
    var rateLimit :=
      if rlLimit.Some? && rlRemaining.Some?
      then Some(RateLimitInfo(rlLimit.value, rlRemaining.value, LongHeader(h, "x-ratelimit-reset")))
      else st.rateLimit;
    ClientState(usage, rateLimit, GetHeader(h, "x-usage-warning"), requestId)
  }

  /** Reading the same headers twice leaves the state as reading them once. */
  lemma ParseHeadersIdempotent(st: ClientState, h: Headers)
    ensures ParseResponseHeaders(ParseResponseHeaders(st, h), h) == ParseResponseHeaders(st, h)
  {
  }

  /** Headers carrying every usage and rate-limit value replace the whole snapshot: the
      state before no longer shows through. */
  lemma CompleteHeadersOverwrite(s1: ClientState, s2: ClientState, h: Headers)
    requires IntHeader(h, "x-monthly-limit").Some? && IntHeader(h, "x-monthly-used").Some?
    requires IntHeader(h, "x-monthly-remaining").Some?
    requires IntHeader(h, "x-ratelimit-limit").Some? && IntHeader(h, "x-ratelimit-remaining").Some?
    ensures ParseResponseHeaders(s1, h) == ParseResponseHeaders(s2, h)
  {
  }

  /** A response without headers keeps the snapshots and clears the request id and the
      usage warning. */
  lemma EmptyHeadersKeepSnapshots(st: ClientState)
    ensures ParseResponseHeaders(st, []) == ClientState(st.usage, st.rateLimit, None, None)
  {
  }

  /** One unparsable usage header is enough to keep the previous usage snapshot whole. */
  lemma UsageNeverPartial(st: ClientState, h: Headers, bad: string)
    requires bad == "x-monthly-limit" || bad == "x-monthly-used" || bad == "x-monthly-remaining"
    requires IntHeader(h, bad).None?
    ensures ParseResponseHeaders(st, h).usage == st.usage
  {
  }
}

=== FILE: models.dfy ===
/** Configuration, request context and result records of the client, with the enum
    accessors the results derive from their raw wire strings. */
module Models {
  import opened Wrappers
  import opened Text
  import Enums

  /** `SafeNestOptions`. Integers are C# `int`s: nothing here bounds them. */
  datatype SafeNestOptions = SafeNestOptions(timeout: int, retries: int, retryDelay: int, baseUrl: string)

  /** The options `new SafeNestOptions()` holds. */
  const DefaultOptions: SafeNestOptions := SafeNestOptions(30_000, 3, 1_000, "https://api.safenest.dev")

  /** A JSON value as the client places it in a request body. */
  datatype JsonValue =
    | JNull
    | JBool(b: bool)
    | JNumber(n: int)
    | JString(s: string)
    | JArray(items: seq<JsonValue>)
    | JObject(members: map<string, JsonValue>)

  /** Caller-supplied `Dictionary<string, object>` metadata, echoed back by the service. */
  type Metadata = map<string, JsonValue>

  datatype AnalysisContext = AnalysisContext(
    language: Option<string>,
    ageGroup: Option<string>,
    relationship: Option<string>,
    platform: Option<string>)

  /** `AnalyzeInput`. `checks` is the `Include` list of checks to run; null means bullying and unsafe. */
  datatype AnalyzeInput = AnalyzeInput(
    content: string,
    context: Option<AnalysisContext>,
    checks: Option<seq<string>>,
    externalId: Option<string>,
    customerId: Option<string>,
    metadata: Option<Metadata>)

  datatype BullyingResult = BullyingResult(
    isBullying: bool,
    bullyingType: seq<string>,
    confidence: real,
    severityRaw: string,
    rationale: string,
    recommendedAction: string,
    riskScore: real,
    externalId: Option<string>,
    customerId: Option<string>,
    metadata: Option<Metadata>)
  {
    /** `Severity`, read from the raw wire string. */
    function Severity(): (r: Enums.Severity)
      ensures forall s: Enums.Severity :: Lower(severityRaw) == s.ToApiString() ==> r == s
      ensures r != Enums.Severity.Low ==> Lower(severityRaw) == r.ToApiString()
    {
      Enums.ParseSeverity(Some(severityRaw))
    }
  }

  datatype GroomingResult = GroomingResult(
    groomingRiskRaw: string,
    flags: seq<string>,
    confidence: real,
    rationale: string,
    riskScore: real,
    recommendedAction: string,
    externalId: Option<string>,
    customerId: Option<string>,
    metadata: Option<Metadata>)
  {
    function GroomingRisk(): (r: Enums.GroomingRisk)
      ensures forall g: Enums.GroomingRisk :: Lower(groomingRiskRaw) == g.ToApiString() ==> r == g
      ensures r != Enums.GroomingRisk.None ==> Lower(groomingRiskRaw) == r.ToApiString()
    {
      Enums.ParseGroomingRisk(Some(groomingRiskRaw))
    }
  }

  datatype UnsafeResult = UnsafeResult(
    isUnsafe: bool,
    categories: seq<string>,
    severityRaw: string,
    confidence: real,
    riskScore: real,
    rationale: string,
    recommendedAction: string,
    externalId: Option<string>,
    customerId: Option<string>,
    metadata: Option<Metadata>)
  {
    function Severity(): (r: Enums.Severity)
      ensures forall s: Enums.Severity :: Lower(severityRaw) == s.ToApiString() ==> r == s
      ensures r != Enums.Severity.Low ==> Lower(severityRaw) == r.ToApiString()
    {
      Enums.ParseSeverity(Some(severityRaw))
    }
  }

  datatype EmotionsResult = EmotionsResult(
    dominantEmotions: seq<string>,
    emotionScores: Option<map<string, real>>,
    trendRaw: string,
    summary: string,
    recommendedFollowup: string,
    externalId: Option<string>,
    customerId: Option<string>,
    metadata: Option<Metadata>)
  {
    function Trend(): (r: Enums.EmotionTrend)
      ensures forall t: Enums.EmotionTrend :: Lower(trendRaw) == t.WireName() ==> r == t
      ensures r != Enums.EmotionTrend.Stable ==> Lower(trendRaw) == r.WireName()
    {
      Enums.ParseEmotionTrend(Some(trendRaw))
    }
  }

  datatype ReportResult = ReportResult(
    summary: string,
    riskLevelRaw: string,
    categories: seq<string>,
    recommendedNextSteps: seq<string>,
    externalId: Option<string>,
    customerId: Option<string>,
    metadata: Option<Metadata>)
  {
    function RiskLevel(): (r: Enums.RiskLevel)
      ensures forall l: Enums.RiskLevel :: Lower(riskLevelRaw) == l.ToApiString() ==> r == l
      ensures Lower(riskLevelRaw) == "moderate" ==> r == Enums.RiskLevel.Medium
      ensures r != Enums.RiskLevel.Safe ==>
                Lower(riskLevelRaw) == r.ToApiString() || (r == Enums.RiskLevel.Medium && Lower(riskLevelRaw) == "moderate")
    {
      Enums.ParseRiskLevel(Some(riskLevelRaw))
    }
  }

  /** The composite verdict of a combined analysis. */
  datatype AnalyzeResult = AnalyzeResult(
    riskLevel: Enums.RiskLevel,
    riskScore: real,
    summary: string,
    bullying: Option<BullyingResult>,
    unsafe: Option<UnsafeResult>,
    recommendedAction: string,
    externalId: Option<string>,
    customerId: Option<string>,
    metadata: Option<Metadata>)

  /** Monthly quota as reported by the service; no relation between the three is enforced. */
  datatype Usage = Usage(limit: int, used: int, remaining: int)

  /** Per-window rate limit; `reset` (epoch seconds) is optional. */
  datatype RateLimitInfo = RateLimitInfo(limit: int, remaining: int, reset: Option<int>)

  /** The records a deserialiser produces for an empty JSON object: every property keeps
      its initialiser. */
  const EmptyBullyingResult: BullyingResult := BullyingResult(false, [], 0.0, "low", "", "", 0.0, None, None, None)
  const EmptyGroomingResult: GroomingResult := GroomingResult("none", [], 0.0, "", 0.0, "", None, None, None)
  const EmptyUnsafeResult: UnsafeResult := UnsafeResult(false, [], "low", 0.0, 0.0, "", "", None, None, None)
  const EmptyEmotionsResult: EmotionsResult := EmotionsResult([], None, "stable", "", "", None, None, None)
  const EmptyReportResult: ReportResult := ReportResult("", "low", [], [], None, None, None)

  /** The raw-string initialisers read as the matching enum members. */
  lemma DefaultRawStringsParse()
    ensures EmptyBullyingResult.Severity() == Enums.Severity.Low
    ensures EmptyUnsafeResult.Severity() == Enums.Severity.Low
    ensures EmptyGroomingResult.GroomingRisk() == Enums.GroomingRisk.None
    ensures EmptyEmotionsResult.Trend() == Enums.EmotionTrend.Stable
    ensures EmptyReportResult.RiskLevel() == Enums.RiskLevel.Low
  {
    LowerOfNoUpper("low");
    LowerOfNoUpper("none");
    LowerOfNoUpper("stable");
  }
}

=== FILE: naming.dfy ===
/** The JSON naming policy that turns the client's PascalCase property names into the
    snake_case names on the wire. */
module Naming {
  import opened Text

  /** How a character after the first is written: an upper-case letter becomes an
      underscore followed by its lower-case form, anything else is kept. */
  function Rewrite(c: char): string
  {
    if IsUpper(c) then ['_', ToLower(c)] else [c]
  }

  /** The characters after the first, rewritten one by one. */
  function RewriteAll(s: string): string
  {
    if |s| == 0 then "" else RewriteAll(s[..|s| - 1]) + Rewrite(s[|s| - 1])
  }

  /** Reference definition of the snake_case name: the first character is only lowered,
      every later upper-case letter gets an underscore in front. */
  function SnakeCase(name: string): string
  {
    if |name| == 0 then "" else [ToLower(name[0])] + RewriteAll(name[1..])
  }

  /** Number of upper-case letters in `s`. */
  function CountUpper(s: string): nat
  {
    if |s| == 0 then 0 else CountUpper(s[..|s| - 1]) + (if IsUpper(s[|s| - 1]) then 1 else 0)
  }

  /** `SnakeCaseNamingPolicy.ConvertName`, a left-to-right scan appending to a builder. */
  method ConvertName(name: string) returns (r: string)
    ensures r == SnakeCase(name)
  {
    if |name| == 0 {
      return name;
    }
    var sb := "";
    var i := 0;
    while i < |name|
      invariant 0 <= i <= |name|
      invariant sb == SnakeCase(name[..i])
    {
      var c := name[i];
      if IsUpper(c) {
        if i > 0 {
          sb := sb + "_";
        }
        sb := sb + [ToLower(c)];
      } else {
        sb := sb + [c];
      }
      assert name[..i + 1][1..] == name[1..i + 1];
      if i > 0 {
        assert name[1..i + 1][..i - 1] == name[1..i];
      }
      i := i + 1;
    }
    assert name[..i] == name;
    r := sb;
  }

  lemma {:induction false} RewriteAllLength(s: string)
    ensures |RewriteAll(s)| == |s| + CountUpper(s)
  {
    if |s| > 0 {
      RewriteAllLength(s[..|s| - 1]);
    }
  }

  lemma {:induction false} RewriteAllNoUpper(s: string)
    ensures NoUpper(RewriteAll(s))
  {
    if |s| > 0 {
      RewriteAllNoUpper(s[..|s| - 1]);
    }
  }

  lemma {:induction false} RewriteAllOfNoUpper(s: string)
    requires NoUpper(s)
    ensures RewriteAll(s) == s
  {
    if |s| > 0 {
      RewriteAllOfNoUpper(s[..|s| - 1]);
      assert s == s[..|s| - 1] + [s[|s| - 1]];
    }
  }

  /** The output is one character longer than the input for every upper-case letter past
      the first position. */
  lemma SnakeCaseLength(name: string)
    ensures |name| == 0 ==> SnakeCase(name) == ""
    ensures |name| > 0 ==> |SnakeCase(name)| == |name| + CountUpper(name[1..])
  {
    if |name| > 0 {
      RewriteAllLength(name[1..]);
    }
  }

  /** The output contains no upper-case letter. */
  lemma SnakeCaseNoUpper(name: string)
    ensures NoUpper(SnakeCase(name))
  {
    if |name| > 0 {
      RewriteAllNoUpper(name[1..]);
    }
  }

  /** A name without upper-case letters is left unchanged. */
  lemma SnakeCaseOfNoUpper(name: string)
    requires NoUpper(name)
    ensures SnakeCase(name) == name
  {
    if |name| > 0 {
      RewriteAllOfNoUpper(name[1..]);
      assert name == [name[0]] + name[1..];
    }
  }

  /** Converting twice is converting once. */
  lemma SnakeCaseIdempotent(name: string)
    ensures SnakeCase(SnakeCase(name)) == SnakeCase(name)
  {
    SnakeCaseNoUpper(name);
    SnakeCaseOfNoUpper(SnakeCase(name));
  }

  /** The output starts with an underscore exactly when the input does: no underscore is
      put in front of a leading capital. */
  lemma SnakeCaseLeadingUnderscore(name: string)
    requires |name| > 0
    ensures SnakeCase(name)[0] == '_' <==> name[0] == '_'
  {
  }
}

=== FILE: requests.dfy ===
/** Input checks run before a request is sent, and the helpers that add optional members
    to a request body. */
module Requests {
  import opened Wrappers
  import opened Exceptions
  import opened Models
  import opened Text
  import Decimal

  const MaxContentLength: int := 50_000
  const MaxMessagesCount: int := 100

  /** The verdict of an input check: pass, or the `ValidationException` it throws. */
  datatype Check = Pass | Reject(error: SafeNestError)

  /** `ValidateContentLength`: content must be non-empty and at most 50,000 characters,
      counted as .NET counts them, in UTF-16 code units. */
  function ValidateContentLength(content: string): (r: Check)
    ensures r.Pass? <==> 0 < Utf16Length(content) <= MaxContentLength
    ensures r.Reject? ==> (r.error.Kind() == ValidationKind && r.error.StatusCode() == Some(400)
                           && r.error.Info() == NoInfo)
    ensures |content| == 0 ==> r == Reject(Validation("Content is required", NoInfo))
  {
    if |content| == 0 then Reject(Validation("Content is required", NoInfo))
    else if Utf16Length(content) > MaxContentLength then
      Reject(Validation("Content exceeds maximum length of " + Decimal.IntToString(MaxContentLength) + " characters", NoInfo))
    else Pass
  }

  /** 30,000 emoji are 60,000 code units: too long, although only 30,000 characters. */
  lemma EmojiCountTwice(content: string)
    requires |content| == 30_000
    requires forall i :: 0 <= i < |content| ==> content[i] == '\U{1F600}'
    ensures ValidateContentLength(content).Reject?
  {
    Utf16LengthOfAstral(content);
  }

  /** For text within the Basic Multilingual Plane the limit is on characters. */
  lemma BmpContentLimit(content: string)
    requires forall i :: 0 <= i < |content| ==> content[i] as int < 0x1_0000
    ensures ValidateContentLength(content).Pass? <==> 0 < |content| <= MaxContentLength
  {
    Utf16LengthOfBmp(content);
  }

  /** `ValidateMessagesCount`: between 1 and 100 messages. */
  function ValidateMessagesCount(count: nat): (r: Check)
    ensures r.Pass? <==> 1 <= count <= MaxMessagesCount
    ensures r.Reject? ==> (r.error.Kind() == ValidationKind && r.error.StatusCode() == Some(400)
                           && r.error.Info() == NoInfo)
  {
    if count == 0 then Reject(Validation("At least one message is required", NoInfo))
    else if count > MaxMessagesCount then
      Reject(Validation("Messages exceed maximum count of " + Decimal.IntToString(MaxMessagesCount), NoInfo))
    else Pass
  }

  /** A request body under construction. */
  type Body = map<string, JsonValue>

  /** The members of the "context" object: one per non-null property, under its wire name. */
  function ContextMembers(c: AnalysisContext): (m: map<string, JsonValue>)
    ensures "language" in m <==> c.language.Some?
    ensures "age_group" in m <==> c.ageGroup.Some?
    ensures "relationship" in m <==> c.relationship.Some?
    ensures "platform" in m <==> c.platform.Some?
    ensures c.language.Some? ==> m["language"] == JString(c.language.value)
    ensures c.ageGroup.Some? ==> m["age_group"] == JString(c.ageGroup.value)
    ensures c.relationship.Some? ==> m["relationship"] == JString(c.relationship.value)
    ensures c.platform.Some? ==> m["platform"] == JString(c.platform.value)
    ensures m.Keys <= {"language", "age_group", "relationship", "platform"}
  {
    var m0: map<string, JsonValue> := map[];
    var m1 := if c.language.Some? then m0["language" := JString(c.language.value)] else m0;
    var m2 := if c.ageGroup.Some? then m1["age_group" := JString(c.ageGroup.value)] else m1;
    var m3 := if c.relationship.Some? then m2["relationship" := JString(c.relationship.value)] else m2;
    if c.platform.Some? then m3["platform" := JString(c.platform.value)] else m3
  }

  /** `AddContext`: a "context" member is added only when the context is present and has at
      least one non-null property; nothing else in the body changes. */
  function AddContext(body: Body, context: Option<AnalysisContext>): (r: Body)
    ensures forall k :: k != "context" ==> (k in r <==> k in body)
    ensures forall k :: k in body && k != "context" ==> r[k] == body[k]
    ensures context.None? || |ContextMembers(context.value)| == 0 ==> r == body
    ensures context.Some? && |ContextMembers(context.value)| > 0 ==> "context" in r && r["context"] == JObject(ContextMembers(context.value))
  {
    if context.None? then body
    else
      var dict := ContextMembers(context.value);
      if |dict| > 0 then body["context" := JObject(dict)] else body
  }

  /** `AddTrackingFields`: each identifier or metadata object is added only when non-null. */
  function AddTrackingFields(body: Body, externalId: Option<string>, customerId: Option<string>,
                             metadata: Option<Metadata>): (r: Body)
    ensures r.Keys == body.Keys
                      + (if externalId.Some? then {"external_id"} else {})
                      + (if customerId.Some? then {"customer_id"} else {})
                      + (if metadata.Some? then {"metadata"} else {})
    ensures forall k :: k in body && k !in {"external_id", "customer_id", "metadata"} ==> r[k] == body[k]
    ensures externalId.Some? ==> r["external_id"] == JString(externalId.value)
    ensures customerId.Some? ==> r["customer_id"] == JString(customerId.value)
    ensures metadata.Some? ==> r["metadata"] == JObject(metadata.value)
    ensures externalId.None? && "external_id" in body ==> r["external_id"] == body["external_id"]
    ensures customerId.None? && "customer_id" in body ==> r["customer_id"] == body["customer_id"]
    ensures metadata.None? && "metadata" in body ==> r["metadata"] == body["metadata"]
  {
    var b1 := if externalId.Some? then body["external_id" := JString(externalId.value)] else body;
    var b2 := if customerId.Some? then b1["customer_id" := JString(customerId.value)] else b1;
    if metadata.Some? then b2["metadata" := JObject(metadata.value)] else b2
  }
}

=== FILE: retry.dfy ===
/** `RequestWithRetryAsync`: up to `maxRetries + 1` attempts; a rate-limit error, server
    error, network error or timeout is retried after a backoff while attempts remain;
    every other outcome ends the call. The environment is a script with one step per
    attempt: the exchange, the random jitter drawn if a backoff follows, and whether the
    caller cancels while that backoff is waited out. */
module Retry {
  import opened Wrappers
  import opened Exceptions
  import opened Classifier
  import opened Metadata
  import opened Executor
  import opened Backoff

  /** The client fields the loop reads: `_timeout`, `_maxRetries`, `_retryDelay`. */
  datatype RetryConfig = RetryConfig(timeoutMs: int, maxRetries: int, retryDelay: nat)

  datatype Step<T> = Step(exchange: Exchange<T>, jitter: int, cancelledInDelay: bool)

  /** How a call ended, how many attempts it made, the backoff delays it started (in
      order), and the metadata state it left behind. */
  datatype Run<T> = Run(outcome: Outcome<T>, attempts: nat, delays: seq<int>, state: ClientState)

  const ExhaustedMessage: string := "Request failed after retries"

  /** The errors a `when` filter lets the loop catch while attempts remain. */
  predicate IsTransient(e: SafeNestError) {
    e.RateLimit? || IsRetryable(e)
  }

  /** The script covers every attempt the loop may make, and the backoff arithmetic of
      every retry is exact with a jitter `Random.Next` can return. */
  predicate WellFormed<T>(cfg: RetryConfig, script: seq<Step<T>>) {
    && cfg.maxRetries < |script|
    && (forall a: nat :: a < cfg.maxRetries ==> Fits(cfg.retryDelay, a))
    && (forall i :: 0 <= i < cfg.maxRetries ==> ValidJitter(script[i].jitter, JitterBound(cfg.retryDelay, i)))
  }

  function Attempt<T>(cfg: RetryConfig, path: string, script: seq<Step<T>>, i: nat): Outcome<T>
    requires i < |script|
  {
    Classify(cfg.timeoutMs, path, script[i].exchange)
  }

  /** Attempt `i` failed with an error the loop catches, so a backoff starts. */
  predicate BacksOff<T>(cfg: RetryConfig, path: string, script: seq<Step<T>>, i: nat)
    requires i < |script|
  {
    i < cfg.maxRetries && Attempt(cfg, path, script, i).Failed? && IsTransient(Attempt(cfg, path, script, i).error)
  }

  /** Attempt `i` is followed by attempt `i + 1`. */
  predicate Continues<T>(cfg: RetryConfig, path: string, script: seq<Step<T>>, i: nat)
    requires i < |script|
  {
    BacksOff(cfg, path, script, i) && !script[i].cancelledInDelay
  }

  /** The delay awaited after attempt `i`: the server's retry-after for a rate-limit error
      that carries one, the computed backoff otherwise. */
  function DelayAfter<T>(cfg: RetryConfig, path: string, script: seq<Step<T>>, i: nat): int
    requires WellFormed(cfg, script) && i < |script| && BacksOff(cfg, path, script, i)
  {
    var e := Attempt(cfg, path, script, i).error;
    if e.RateLimit? && e.retryAfterSeconds.Some? then e.retryAfterSeconds.value * 1000
    else CalculateBackoff(cfg.retryDelay, i, script[i].jitter)
  }

  /** The metadata state after the given exchanges, in order. */
  function ObserveAll<T>(timeoutMs: int, st: ClientState, steps: seq<Step<T>>): ClientState
    decreases |steps|
  {
    if |steps| == 0 then st else ObserveAll(timeoutMs, Observe(timeoutMs, st, steps[0].exchange), steps[1..])
  }

  /** The loop from iteration `attempt` on. */
  function RunFrom<T>(cfg: RetryConfig, path: string, st: ClientState, script: seq<Step<T>>, attempt: nat): (r: Run<T>)
    requires WellFormed(cfg, script) && attempt <= cfg.maxRetries
    ensures 1 <= r.attempts <= cfg.maxRetries + 1 - attempt
    ensures r.attempts - 1 <= |r.delays| <= r.attempts
    decreases cfg.maxRetries - attempt
  {
    var st' := Observe(cfg.timeoutMs, st, script[attempt].exchange);
    if BacksOff(cfg, path, script, attempt) then
      var delay := DelayAfter(cfg, path, script, attempt);
      if script[attempt].cancelledInDelay then Run(Cancelled, 1, [delay], st')
      else
        var rest := RunFrom(cfg, path, st', script, attempt + 1);
        Run(rest.outcome, rest.attempts + 1, [delay] + rest.delays, rest.state)
    else Run(Attempt(cfg, path, script, attempt), 1, [], st')
  }

  /** `RequestWithRetryAsync`. A negative retry count (which only the constructor taking an
      `HttpClient` admits) skips the loop and throws the fallback error. */
  function RequestWithRetry<T>(cfg: RetryConfig, path: string, st: ClientState, script: seq<Step<T>>): (r: Run<T>)
    requires WellFormed(cfg, script)
    ensures cfg.maxRetries >= 0 ==> 1 <= r.attempts <= cfg.maxRetries + 1
    ensures cfg.maxRetries < 0 ==> r == Run(Failed(Plain(ExhaustedMessage)), 0, [], st)
  {
    if cfg.maxRetries < 0 then Run(Failed(Plain(ExhaustedMessage)), 0, [], st)
    else RunFrom(cfg, path, st, script, 0)
  }

  /** Reference description of a run that starts at iteration `from`, in four parts. */

  /** Every attempt but the last was followed by another; the last was not. */
  ghost predicate AttemptsOf<T>(cfg: RetryConfig, path: string, script: seq<Step<T>>, from: nat, r: Run<T>)
    requires WellFormed(cfg, script) && from <= cfg.maxRetries
  {
    && 1 <= r.attempts <= cfg.maxRetries + 1 - from
    && (forall i :: from <= i < from + r.attempts - 1 ==> Continues(cfg, path, script, i))
    && !Continues(cfg, path, script, from + r.attempts - 1)
  }

  /** The call ends with the last attempt's own outcome, unless that attempt backed off,
      in which case the caller cancelled the delay. */
  ghost predicate OutcomeOf<T>(cfg: RetryConfig, path: string, script: seq<Step<T>>, from: nat, r: Run<T>)
    requires WellFormed(cfg, script) && from <= cfg.maxRetries && 1 <= r.attempts <= cfg.maxRetries + 1 - from
  {
    var last := from + r.attempts - 1;
    r.outcome == (if BacksOff(cfg, path, script, last) then Cancelled else Attempt(cfg, path, script, last))
  }

  /** `d` is the delay owed after attempt `k`, which backed off. */
  ghost predicate DelayMatches<T>(cfg: RetryConfig, path: string, script: seq<Step<T>>, k: nat, d: int)
    requires WellFormed(cfg, script)
  {
    k < |script| && BacksOff(cfg, path, script, k) && d == DelayAfter(cfg, path, script, k)
  }

  /** One delay per attempt that backed off, each the one owed after that attempt. */
  ghost predicate DelaysOf<T>(cfg: RetryConfig, path: string, script: seq<Step<T>>, from: nat, r: Run<T>)
    requires WellFormed(cfg, script) && from <= cfg.maxRetries && 1 <= r.attempts <= cfg.maxRetries + 1 - from
  {
    var last := from + r.attempts - 1;
    && |r.delays| == (if BacksOff(cfg, path, script, last) then r.attempts else r.attempts - 1)
    && (forall i :: 0 <= i < |r.delays| ==> DelayMatches(cfg, path, script, from + i, r.delays[i]))
  }

  /** The state has observed every exchange made, in order. */
  ghost predicate StateOf<T>(cfg: RetryConfig, script: seq<Step<T>>, st: ClientState, from: nat, r: Run<T>)
    requires WellFormed(cfg, script) && from <= cfg.maxRetries && 1 <= r.attempts <= cfg.maxRetries + 1 - from
  {
    r.state == ObserveAll(cfg.timeoutMs, st, script[from..from + r.attempts])
  }

  lemma {:induction false} RunFromAttempts<T>(cfg: RetryConfig, path: string, st: ClientState, script: seq<Step<T>>, from: nat)
    requires WellFormed(cfg, script) && from <= cfg.maxRetries
    ensures AttemptsOf(cfg, path, script, from, RunFrom(cfg, path, st, script, from))
    decreases cfg.maxRetries - from
  {
    var r := RunFrom(cfg, path, st, script, from);
    if Continues(cfg, path, script, from) {
      var st' := Observe(cfg.timeoutMs, st, script[from].exchange);
      RunFromAttempts(cfg, path, st', script, from + 1);
      var rest := RunFrom(cfg, path, st', script, from + 1);
      assert r.attempts == rest.attempts + 1;
      AttemptsPrepend(cfg, path, script, from, r, rest);
    } else {
      assert r.attempts == 1;
    }
  }

  /** A run one attempt longer than `rest`, whose extra first attempt was followed by
      another, meets the reference from one iteration earlier. */
  lemma AttemptsPrepend<T>(cfg: RetryConfig, path: string, script: seq<Step<T>>, from: nat, r: Run<T>, rest: Run<T>)
    requires WellFormed(cfg, script) && from < cfg.maxRetries && Continues(cfg, path, script, from)
    requires r.attempts == rest.attempts + 1
    requires AttemptsOf(cfg, path, script, from + 1, rest)
    ensures AttemptsOf(cfg, path, script, from, r)
  {
    assert from + r.attempts - 1 == (from + 1) + rest.attempts - 1;
  }

  lemma {:induction false} RunFromOutcome<T>(cfg: RetryConfig, path: string, st: ClientState, script: seq<Step<T>>, from: nat)
    requires WellFormed(cfg, script) && from <= cfg.maxRetries
    ensures AttemptsOf(cfg, path, script, from, RunFrom(cfg, path, st, script, from))
    ensures OutcomeOf(cfg, path, script, from, RunFrom(cfg, path, st, script, from))
    decreases cfg.maxRetries - from
  {
    RunFromAttempts(cfg, path, st, script, from);
    if Continues(cfg, path, script, from) {
      RunFromOutcome(cfg, path, Observe(cfg.timeoutMs, st, script[from].exchange), script, from + 1);
    }
  }

  /** One backed-off, uncancelled attempt puts its delay in front of the rest of the run. */
  lemma UnfoldContinue<T>(cfg: RetryConfig, path: string, st: ClientState, script: seq<Step<T>>, from: nat)
    requires WellFormed(cfg, script) && from <= cfg.maxRetries && Continues(cfg, path, script, from)
    ensures var r := RunFrom(cfg, path, st, script, from);
            var rest := RunFrom(cfg, path, Observe(cfg.timeoutMs, st, script[from].exchange), script, from + 1);
            r.delays == [DelayAfter(cfg, path, script, from)] + rest.delays && r.attempts == rest.attempts + 1
  {
  }

  lemma DelaysShift<T>(cfg: RetryConfig, path: string, script: seq<Step<T>>, from: nat, ds: seq<int>, rest: seq<int>)
    requires WellFormed(cfg, script) && from < |script| && BacksOff(cfg, path, script, from)
    requires ds == [DelayAfter(cfg, path, script, from)] + rest
    requires forall i :: 0 <= i < |rest| ==> DelayMatches(cfg, path, script, from + 1 + i, rest[i])
    ensures forall i :: 0 <= i < |ds| ==> DelayMatches(cfg, path, script, from + i, ds[i])
  {
    forall i | 0 <= i < |ds|
      ensures DelayMatches(cfg, path, script, from + i, ds[i])
    {
      if i > 0 {
        assert ds[i] == rest[i - 1];
        assert from + i == from + 1 + (i - 1);
      }
    }
  }

  /** A run one attempt longer than `rest`, whose extra first attempt backed off, owes that
      attempt's delay in front of the delays of `rest`. */
  lemma DelaysPrepend<T>(cfg: RetryConfig, path: string, script: seq<Step<T>>, from: nat, r: Run<T>, rest: Run<T>)
    requires WellFormed(cfg, script) && from < cfg.maxRetries && BacksOff(cfg, path, script, from)
    requires 1 <= rest.attempts <= cfg.maxRetries - from
    requires r.attempts == rest.attempts + 1 && r.delays == [DelayAfter(cfg, path, script, from)] + rest.delays
    requires DelaysOf(cfg, path, script, from + 1, rest)
    ensures DelaysOf(cfg, path, script, from, r)
  {
    assert from + r.attempts - 1 == (from + 1) + rest.attempts - 1;
    DelaysShift(cfg, path, script, from, r.delays, rest.delays);
  }

  /** The delays of a run that ends at its first attempt. */
  lemma DelaysWhenStopping<T>(cfg: RetryConfig, path: string, st: ClientState, script: seq<Step<T>>, from: nat)
    requires WellFormed(cfg, script) && from <= cfg.maxRetries && !Continues(cfg, path, script, from)
    ensures DelaysOf(cfg, path, script, from, RunFrom(cfg, path, st, script, from))
  {
    var r := RunFrom(cfg, path, st, script, from);
    if BacksOff(cfg, path, script, from) {
      assert r.attempts == 1 && r.delays == [DelayAfter(cfg, path, script, from)];
    } else {
      assert r.attempts == 1 && r.delays == [];
    }
    DelaysOfOne(cfg, path, script, from, r);
  }

  /** The delays of a run of one attempt: the one it owes, if it backed off. */
  lemma DelaysOfOne<T>(cfg: RetryConfig, path: string, script: seq<Step<T>>, from: nat, r: Run<T>)
    requires WellFormed(cfg, script) && from <= cfg.maxRetries && r.attempts == 1
    requires BacksOff(cfg, path, script, from) ==> r.delays == [DelayAfter(cfg, path, script, from)]
    requires !BacksOff(cfg, path, script, from) ==> r.delays == []
    ensures DelaysOf(cfg, path, script, from, r)
  {
  }

  /** The delays of a run that goes on after its first attempt, from those of the rest. */
  lemma DelaysWhenContinuing<T>(cfg: RetryConfig, path: string, st: ClientState, script: seq<Step<T>>, from: nat)
    requires WellFormed(cfg, script) && from < cfg.maxRetries && Continues(cfg, path, script, from)
    requires DelaysOf(cfg, path, script, from + 1, RunFrom(cfg, path, Observe(cfg.timeoutMs, st, script[from].exchange), script, from + 1))
    ensures DelaysOf(cfg, path, script, from, RunFrom(cfg, path, st, script, from))
  {
    var rest := RunFrom(cfg, path, Observe(cfg.timeoutMs, st, script[from].exchange), script, from + 1);
    UnfoldContinue(cfg, path, st, script, from);
    DelaysPrepend(cfg, path, script, from, RunFrom(cfg, path, st, script, from), rest);
  }

  lemma {:induction false} RunFromDelays<T>(cfg: RetryConfig, path: string, st: ClientState, script: seq<Step<T>>, from: nat)
    requires WellFormed(cfg, script) && from <= cfg.maxRetries
    ensures AttemptsOf(cfg, path, script, from, RunFrom(cfg, path, st, script, from))
    ensures DelaysOf(cfg, path, script, from, RunFrom(cfg, path, st, script, from))
    decreases cfg.maxRetries - from
  {
    RunFromAttempts(cfg, path, st, script, from);
    if Continues(cfg, path, script, from) {
      var st' := Observe(cfg.timeoutMs, st, script[from].exchange);
      RunFromDelays(cfg, path, st', script, from + 1);
      DelaysWhenContinuing(cfg, path, st, script, from);
    } else {
      DelaysWhenStopping(cfg, path, st, script, from);
    }
  }

  lemma {:induction false} RunFromState<T>(cfg: RetryConfig, path: string, st: ClientState, script: seq<Step<T>>, from: nat)
    requires WellFormed(cfg, script) && from <= cfg.maxRetries
    ensures StateOf(cfg, script, st, from, RunFrom(cfg, path, st, script, from))
    decreases cfg.maxRetries - from
  {
    var r := RunFrom(cfg, path, st, script, from);
    var st' := Observe(cfg.timeoutMs, st, script[from].exchange);
    if Continues(cfg, path, script, from) {
      var rest := RunFrom(cfg, path, st', script, from + 1);
      RunFromState(cfg, path, st', script, from + 1);
      assert r.attempts == rest.attempts + 1 && r.state == rest.state;
      StatePrepend(cfg, script, st, from, r, rest);
    } else {
      assert r.attempts == 1 && r.state == st';
      StateOfOne(cfg, script, st, from, r);
    }
  }

  /** A run that took over the state of `rest` after one more exchange has observed that
      exchange and then those of `rest`. */
  lemma StatePrepend<T>(cfg: RetryConfig, script: seq<Step<T>>, st: ClientState, from: nat, r: Run<T>, rest: Run<T>)
    requires WellFormed(cfg, script) && from < cfg.maxRetries && 1 <= rest.attempts <= cfg.maxRetries - from
    requires r.attempts == rest.attempts + 1 && r.state == rest.state
    requires StateOf(cfg, script, Observe(cfg.timeoutMs, st, script[from].exchange), from + 1, rest)
    ensures StateOf(cfg, script, st, from, r)
  {
    assert script[from..from + r.attempts][1..] == script[from + 1..from + 1 + rest.attempts];
  }

  /** A run of one attempt has observed that attempt's exchange. */
  lemma StateOfOne<T>(cfg: RetryConfig, script: seq<Step<T>>, st: ClientState, from: nat, r: Run<T>)
    requires WellFormed(cfg, script) && from <= cfg.maxRetries && r.attempts == 1
    requires r.state == Observe(cfg.timeoutMs, st, script[from].exchange)
    ensures StateOf(cfg, script, st, from, r)
  {
    assert script[from..from + 1][1..] == [];
  }

  /** The whole call, against the reference description. */
  lemma RequestMeetsReference<T>(cfg: RetryConfig, path: string, st: ClientState, script: seq<Step<T>>)
    requires WellFormed(cfg, script) && cfg.maxRetries >= 0
    ensures AttemptsOf(cfg, path, script, 0, RequestWithRetry(cfg, path, st, script))
    ensures OutcomeOf(cfg, path, script, 0, RequestWithRetry(cfg, path, st, script))
    ensures DelaysOf(cfg, path, script, 0, RequestWithRetry(cfg, path, st, script))
    ensures StateOf(cfg, script, st, 0, RequestWithRetry(cfg, path, st, script))
  {
    RunFromOutcome(cfg, path, st, script, 0);
    RunFromDelays(cfg, path, st, script, 0);
    RunFromState(cfg, path, st, script, 0);
  }

  /** Authentication, validation, not-found, tier-access and generic errors are never
      caught by a `when` filter. */
  lemma TerminalKindsNeverRetried(e: SafeNestError)
    requires e.Kind() in {AuthenticationKind, ValidationKind, NotFoundKind, TierAccessKind, GenericKind}
    ensures !IsTransient(e)
  {
  }

  /** When the first attempt does not back off (success, caller cancellation, a foreign
      exception, a non-transient error, or no retries configured), it is the only attempt
      and its outcome is the call's. */
  lemma FirstAttemptEndsCall<T>(cfg: RetryConfig, path: string, st: ClientState, script: seq<Step<T>>)
    requires WellFormed(cfg, script) && cfg.maxRetries >= 0
    requires !BacksOff(cfg, path, script, 0)
    ensures RequestWithRetry(cfg, path, st, script).attempts == 1
    ensures RequestWithRetry(cfg, path, st, script).outcome == Attempt(cfg, path, script, 0)
    ensures RequestWithRetry(cfg, path, st, script).delays == []
  {
    RequestMeetsReference(cfg, path, st, script);
  }

  /** A terminal error, a foreign exception or a caller cancellation on the first attempt: exactly one attempt,
      and that outcome is the call's. */
  lemma TerminalErrorOnFirstAttempt<T>(cfg: RetryConfig, path: string, st: ClientState, script: seq<Step<T>>)
    requires WellFormed(cfg, script) && cfg.maxRetries >= 0
    requires || Attempt(cfg, path, script, 0).Cancelled?
             || Attempt(cfg, path, script, 0).Foreign?
             || (Attempt(cfg, path, script, 0).Failed?
                 && Attempt(cfg, path, script, 0).error.Kind() in
                      {AuthenticationKind, ValidationKind, NotFoundKind, TierAccessKind, GenericKind})
    ensures RequestWithRetry(cfg, path, st, script).attempts == 1
    ensures RequestWithRetry(cfg, path, st, script).outcome == Attempt(cfg, path, script, 0)
  {
    if Attempt(cfg, path, script, 0).Failed? {
      TerminalKindsNeverRetried(Attempt(cfg, path, script, 0).error);
    }
    FirstAttemptEndsCall(cfg, path, st, script);
  }

  /** A failed call surfaces exactly the error of the last attempt it made. */
  lemma LastErrorSurfaces<T>(cfg: RetryConfig, path: string, st: ClientState, script: seq<Step<T>>)
    requires WellFormed(cfg, script) && cfg.maxRetries >= 0
    requires RequestWithRetry(cfg, path, st, script).outcome.Failed?
    ensures var r := RequestWithRetry(cfg, path, st, script);
            r.outcome == Attempt(cfg, path, script, r.attempts - 1)
  {
    RequestMeetsReference(cfg, path, st, script);
  }

  /** Every attempt before the last failed with a transient error while attempts remained;
      so a successful or cancelled attempt, or a terminal error, is always the last one. */
  lemma OnlyTransientFailuresRetried<T>(cfg: RetryConfig, path: string, st: ClientState, script: seq<Step<T>>, i: nat)
    requires WellFormed(cfg, script) && cfg.maxRetries >= 0
    requires i < RequestWithRetry(cfg, path, st, script).attempts - 1
    ensures i < cfg.maxRetries
    ensures Attempt(cfg, path, script, i).Failed? && IsTransient(Attempt(cfg, path, script, i).error)
    ensures !script[i].cancelledInDelay
  {
    RequestMeetsReference(cfg, path, st, script);
    assert Continues(cfg, path, script, i);
  }

  /** If every attempt fails transiently and the caller never cancels, the loop makes all
      `maxRetries + 1` attempts, sleeps `maxRetries` times and surfaces the last error. */
  lemma ExhaustedBudget<T>(cfg: RetryConfig, path: string, st: ClientState, script: seq<Step<T>>)
    requires WellFormed(cfg, script) && cfg.maxRetries >= 0
    requires forall i :: 0 <= i <= cfg.maxRetries ==>
               Attempt(cfg, path, script, i).Failed? && IsTransient(Attempt(cfg, path, script, i).error)
               && !script[i].cancelledInDelay
    ensures RequestWithRetry(cfg, path, st, script).attempts == cfg.maxRetries + 1
    ensures |RequestWithRetry(cfg, path, st, script).delays| == cfg.maxRetries
    ensures RequestWithRetry(cfg, path, st, script).outcome == Attempt(cfg, path, script, cfg.maxRetries)
  {
    RequestMeetsReference(cfg, path, st, script);
  }

  /** A cancellation while the backoff after a transient failure is awaited ends the call
      as cancelled, not with the error that caused the backoff. */
  lemma CancelledDuringBackoff<T>(cfg: RetryConfig, path: string, st: ClientState, script: seq<Step<T>>)
    requires WellFormed(cfg, script) && cfg.maxRetries > 0
    requires Attempt(cfg, path, script, 0).Failed? && IsTransient(Attempt(cfg, path, script, 0).error)
    requires script[0].cancelledInDelay
    ensures RequestWithRetry(cfg, path, st, script).outcome == Cancelled
    ensures RequestWithRetry(cfg, path, st, script).attempts == 1
  {
    RequestMeetsReference(cfg, path, st, script);
  }

  /** A timeout `CancelAfter` rejects ends the call at its first attempt with that foreign
      exception: nothing is sent, nothing is retried and the metadata is untouched. */
  lemma RejectedDeadlineEndsCall<T>(cfg: RetryConfig, path: string, st: ClientState, script: seq<Step<T>>)
    requires WellFormed(cfg, script) && cfg.maxRetries >= 0 && !DeadlineAccepted(cfg.timeoutMs)
    ensures RequestWithRetry(cfg, path, st, script).outcome == Foreign
    ensures RequestWithRetry(cfg, path, st, script).attempts == 1
    ensures RequestWithRetry(cfg, path, st, script).state == st
  {
    FirstAttemptEndsCall(cfg, path, st, script);
  }

  /** Every delay is the computed backoff for its attempt (a rate-limit error never carries
      a retry-after value), so none exceeds the 30-second cap. */
  lemma DelaysAreBackoffs<T>(cfg: RetryConfig, path: string, st: ClientState, script: seq<Step<T>>, i: nat)
    requires WellFormed(cfg, script) && cfg.maxRetries >= 0
    requires i < |RequestWithRetry(cfg, path, st, script).delays|
    ensures i < cfg.maxRetries
    ensures RequestWithRetry(cfg, path, st, script).delays[i] == CalculateBackoff(cfg.retryDelay, i, script[i].jitter)
    ensures 0 <= RequestWithRetry(cfg, path, st, script).delays[i] <= MaxBackoffMs
  {
    RequestMeetsReference(cfg, path, st, script);
    var r := RequestWithRetry(cfg, path, st, script);
    assert DelayMatches(cfg, path, script, 0 + i, r.delays[i]);
  }

  /** The metadata state after the call has observed exactly the exchanges made. */
  lemma StateObservesAttemptsMade<T>(cfg: RetryConfig, path: string, st: ClientState, script: seq<Step<T>>)
    requires WellFormed(cfg, script) && cfg.maxRetries >= 0
    ensures var r := RequestWithRetry(cfg, path, st, script);
            r.state == ObserveAll(cfg.timeoutMs, st, script[..r.attempts])
  {
    RequestMeetsReference(cfg, path, st, script);
    var r := RequestWithRetry(cfg, path, st, script);
    assert script[0..0 + r.attempts] == script[..r.attempts];
  }
}

=== FILE: text.dfy ===
/** Character classes and string helpers: ASCII case mapping (the client's property names,
    wire strings and header names are ASCII), `char.IsWhiteSpace`, the UTF-16 length .NET
    strings report, and `string.Join`. */
module Text {

  predicate IsUpper(c: char) {
    'A' <= c <= 'Z'
  }

  /** `char.ToLowerInvariant` on ASCII: upper-case letters move down by 32, everything
      else is left alone. */
  function ToLower(c: char): (r: char)
    ensures !IsUpper(r)
    ensures !IsUpper(c) ==> r == c
    ensures IsUpper(c) ==> 'a' <= r <= 'z' && r as int - c as int == 'a' as int - 'A' as int
  {
    if IsUpper(c) then (c as int - 'A' as int + 'a' as int) as char else c
  }

  /** `string.ToLowerInvariant` on ASCII. */
  function Lower(s: string): string
  {
    seq(|s|, i requires 0 <= i < |s| => ToLower(s[i]))
  }

  predicate NoUpper(s: string) {
    forall i :: 0 <= i < |s| ==> !IsUpper(s[i])
  }

  lemma LowerHasNoUpper(s: string)
    ensures NoUpper(Lower(s))
  {
  }

  /** A string without upper-case letters is its own lower-case form. */
  lemma LowerOfNoUpper(s: string)
    requires NoUpper(s)
    ensures Lower(s) == s
  {
  }

  lemma LowerIdempotent(s: string)
    ensures Lower(Lower(s)) == Lower(s)
  {
    LowerHasNoUpper(s);
    LowerOfNoUpper(Lower(s));
  }

  /** `char.IsWhiteSpace`: the space separators (U+0020, U+00A0, U+1680, U+2000..U+200A,
      U+202F, U+205F, U+3000), the line and paragraph separators (U+2028, U+2029), the
      controls U+0009..U+000D and NEL (U+0085). */
  predicate IsWhiteSpace(c: char) {
    || c == ' ' || '\t' <= c <= '\r' || c == '\U{85}' || c == '\U{A0}' || c == '\U{1680}'
    || '\U{2000}' <= c <= '\U{200A}' || c == '\U{2028}' || c == '\U{2029}'
    || c == '\U{202F}' || c == '\U{205F}' || c == '\U{3000}'
  }

  /** `string.IsNullOrWhiteSpace` for a non-null string. */
  predicate IsBlank(s: string) {
    forall i :: 0 <= i < |s| ==> IsWhiteSpace(s[i])
  }

  /** Typographic spaces from the General Punctuation block count as white space. */
  lemma EnQuadsAreBlank()
    ensures IsBlank("\U{2000}\U{2000}")
    ensures IsBlank("\U{3000}") && IsBlank("\U{2028}") && IsBlank("")
    ensures !IsBlank("\U{200B}") && !IsBlank(" x ")
  {
    assert !IsWhiteSpace(" x "[1]);
    assert !IsWhiteSpace("\U{200B}"[0]);
  }

  /** The UTF-16 code units one character takes: two for a supplementary-plane
      character (a surrogate pair), one otherwise. */
  function Utf16Units(c: char): nat {
    if c as int >= 0x1_0000 then 2 else 1
  }

  /** `string.Length`: the number of UTF-16 code units. */
  function Utf16Length(s: string): (n: nat)
    ensures |s| <= n <= 2 * |s|
  {
    if |s| == 0 then 0 else Utf16Units(s[0]) + Utf16Length(s[1..])
  }

  /** Text within the Basic Multilingual Plane has one code unit per character. */
  lemma {:induction false} Utf16LengthOfBmp(s: string)
    requires forall i :: 0 <= i < |s| ==> s[i] as int < 0x1_0000
    ensures Utf16Length(s) == |s|
  {
    if |s| > 0 {
      Utf16LengthOfBmp(s[1..]);
    }
  }

  /** Text made only of supplementary-plane characters (most emoji) has two code units
      per character. */
  lemma {:induction false} Utf16LengthOfAstral(s: string)
    requires forall i :: 0 <= i < |s| ==> s[i] as int >= 0x1_0000
    ensures Utf16Length(s) == 2 * |s|
  {
    if |s| > 0 {
      Utf16LengthOfAstral(s[1..]);
    }
  }

  /** The code units of a concatenation add up. */
  lemma {:induction false} Utf16LengthAppend(a: string, b: string)
    ensures Utf16Length(a + b) == Utf16Length(a) + Utf16Length(b)
    decreases |a|
  {
    if |a| > 0 {
      assert (a + b)[1..] == a[1..] + b;
      Utf16LengthAppend(a[1..], b);
    } else {
      assert a + b == b;
    }
  }

  /** `string.Join(sep, items)`. */
  function Join(sep: string, items: seq<string>): (r: string)
    ensures |items| == 0 ==> r == ""
    ensures |items| == 1 ==> r == items[0]
    ensures |items| > 0 ==> |r| >= |items[0]| && r[..|items[0]|] == items[0]
  {
    if |items| == 0 then ""
    else if |items| == 1 then items[0]
    else items[0] + sep + Join(sep, items[1..])
  }

  /** Joining one more item appends the separator and that item: together with the
      one-item case this fixes `Join` on every list. */
  lemma {:induction false} JoinSnoc(sep: string, items: seq<string>, x: string)
    requires |items| > 0
    ensures Join(sep, items + [x]) == Join(sep, items) + sep + x
    decreases |items|
  {
    var all := items + [x];
    assert all[0] == items[0];
    if |items| == 1 {
      assert all[1..] == [x];
    } else {
      assert all[1..] == items[1..] + [x];
      JoinSnoc(sep, items[1..], x);
    }
  }
}

=== FILE: wrappers.dfy ===
/** Optional values and results with a typed failure, used in place of C# nulls and
    of exceptions that the model returns instead of throwing. */
module Wrappers {

  /** A nullable reference or nullable value (`T?` in the client). */
  datatype Option<+T> = None | Some(value: T) {

    /** The value, or `default` when absent (the C# `??` operator). */
    function GetOr(default: T): T {
      match this
      case Some(v) => v
      case None => default
    }
  }

  /** Either a value or the error that replaced it. */
  datatype Result<+R, +E> = Success(value: R) | Failure(error: E)
}
